=== FILE: README.md ===
# OnceLinks core, modelled in Dafny

OnceLinks issues single-use links to a stored HTML document. The first open
consumes the link, and every later open fails. This project models the
client-side core of the application as pure Dafny functions:

- the links store: the `once_links` table, the actions that change it, the
  in-memory `links` mirror, the derived listings and the link URL;
- the token generator;
- the form validators;
- the toast queue;
- the router's navigation guard;
- the theme store.

The proofs cover the following:

- **Single use.** `deactivateLink` only updates a row that is still active.
  So a second consume of the same id matches nothing, fails, and leaves the
  store unchanged. This still holds after any sequence of later edits,
  trash/restore, deletes, reads and other consumes.
- **Exact field effects.** Each store action changes only its own columns,
  and only on the row its `.eq` filters select.
- **Trash and restore.** For a row that is not in the trash, restoring
  right after trashing gives back the original row and the original table.
- **Token shape.** Tokens have the promised length and alphabet.
- **Email check.** The executable email check agrees with the regular
  expression read as an `a@b.c` split.
- **Toast queue.** Toast ids stay fresh and ordered.
- **No redirect loop.** The navigation guard never redirects to a page it
  would itself refuse.
- **Theme.** A stored theme preference always wins over the system one.

Files, one module each:

| file | module | models |
|---|---|---|
| wrappers.dfy | `Wrappers` | `Option` (null/undefined) and `Result` (error returns) |
| seqs.dfy | `Seqs` | `Array.prototype.filter` and its counting facts |
| js_text.dfy | `JsText` | JavaScript whitespace, `String.prototype.trim` |
| token_generator.dfy | `TokenGenerator` | src/utils/tokenGenerator.js |
| validators.dfy | `Validators` | src/utils/validators.js |
| link_table.dfy | `LinkTable` | the `once_links` rows and the query builder: `.eq`, `.update`, `.single`, `.delete`, `.insert` |
| links_store.dfy | `LinksStore` | src/stores/links.js actions, mirror, getters, `getLinkUrl` |
| link_lifecycle.dfy | `LinkLifecycle` | guarantees that span several store actions |
| toast.dfy | `ToastQueue` | src/composables/useToast.js |
| router.dfy | `Router` | src/router/index.js |
| theme.dfy | `Theme` | src/stores/theme.js |

Inputs that the source reads from its environment become parameters:

- the signed-in user (`Option<Id>`);
- the clock (`now`, an integer timestamp);
- the 32 random bytes or the random UUID string;
- the store-assigned row id;
- the reply of the server-side `fetch_and_deactivate_link` call;
- the stored theme value and the system colour-scheme preference;
- `VITE_APP_URL` and the page origin.

## Model

| member | source | states |
|---|---|---|
| LinkTable.Apply | src/stores/links.js:169-173 | The consume payload sets `is_active` false, stamps `accessed_at` and adds one to `access_count`, and keeps every other column. The edit payload (lines 211-215) writes exactly title, content and expiry. The trash and restore payloads (lines 256, 293) write only `deleted_at`. Id, owner and token never change. |
| LinkTable.UpdateSingle | src/stores/links.js:167-179 | An update followed by `.single()` succeeds iff exactly one row matches the filters. On success it patches only that row and returns it, and every other row stays as it was. On failure the table is unchanged. |
| LinkTable.SelectSingle | src/stores/links.js:98-105 | A select followed by `.single()` succeeds iff exactly one row matches. The row it returns is in the table and satisfies the filters. |
| LinkTable.DeleteWhere | src/stores/links.js:328-334 | A delete keeps exactly the rows that do not match the filters. Its size drops by the number of matches, and primary keys stay unique. |
| LinkTable.InsertRow | src/stores/links.js:141-147 | An insert succeeds iff no row has the new primary key. On success the row is added to the table. |
| LinkTable.FirstMatch | src/stores/links.js:182 | `findIndex` returns the first matching index, or -1 exactly when nothing matches (a match count of zero). |
| LinkTable.SingleMatchIsUnique | src/stores/links.js:176-177 | When the match count is one, the first match is the only matching row. |
| LinkTable.SameSelection | src/stores/links.js:254-258 | Two tables whose rows the filters select alike have the same match count and the same first match. |
| LinkTable.UniqueIdsSingle | src/stores/links.js:174-177 | With unique ids, one selected row under an id-pinning filter means a match count of exactly one. |
| LinksStore.IndexById | src/stores/links.js:182 | The mirror's `findIndex` by id returns the first entry with that id, or -1 when no entry has it. |
| LinksStore.Prepend | src/stores/links.js:150 | `unshift` puts the new row first and keeps the old mirror after it. |
| LinksStore.ReplaceById | src/stores/links.js:182-185 | Replace-by-id keeps the length and puts the row at the first index with that id. Every other entry is unchanged, and the call is a no-op when the id is absent. |
| LinksStore.RemoveById | src/stores/links.js:337-340 | The splice is a no-op when the id is absent. Otherwise it removes exactly one entry, the first with that id, as a multiset difference. The remaining entries keep their order. |
| LinksStore.LinkCount | src/stores/links.js:29 | `linkCount` counts the untrashed records: the mirror's length minus the trashed listing's. |
| LinksStore.ActiveLinks | src/stores/links.js:17-19 | `activeLinks` lists exactly the mirrored records that are active and not trashed. |
| LinksStore.InactiveLinks | src/stores/links.js:21-23 | `inactiveLinks` lists exactly the mirrored records that are inactive and not trashed. |
| LinksStore.DeletedLinks | src/stores/links.js:25-27 | `deletedLinks` lists exactly the mirrored records that are trashed. |
| LinksStore.ListingsPartition | src/stores/links.js:17-27 | Every mirrored record is in exactly one of the three listings. |
| LinksStore.ListingCounts | src/stores/links.js:17-29 | `linkCount` equals the active count plus the inactive count. The three listings together are as long as the mirror. |
| LinksStore.ConsumeFilter | src/stores/links.js:174-175 | A row matches the consume filters iff its id is the one given and it is still active. |
| LinksStore.OwnerFilter | src/stores/links.js:220-221 | A row matches the owner filters iff it has the given id and belongs to the given user. |
| LinksStore.TokenFilter | src/stores/links.js:101-102 | A row matches iff it has the given token and is still active. |
| LinksStore.IdFilter | src/stores/links.js:182 | A row matches iff it has the given id. |
| LinksStore.NewRow | src/stores/links.js:130-139 | A new row carries the user as owner, the token, title, content and expiry given, `is_active` true, `access_count` 0 and no access stamp, so it is listed as active. |
| LinksStore.AfterUpdate | src/stores/links.js:182-189 | After an update the table is the updated one. The mirror keeps its length, the first entry with the id becomes the new row and every other entry is kept. The current link becomes the new row iff it has that id and the action syncs it; otherwise it is kept. |
| LinksStore.CreateLink | src/stores/links.js:122-152 | Without a user the call fails and changes nothing. Otherwise it succeeds iff the new id is free. The stored row is owned by the user and has a 32-character generated token, `is_active` true, `access_count` 0, the given expiry (or null) and null access and trash stamps. The row is appended to the table and put first in the mirror. |
| LinksStore.DeactivateLink | src/stores/links.js:165-195 | The call succeeds iff exactly one row has this id and is still active. That row gets `is_active` false, `accessed_at` set to now and `access_count` plus one; title, content, token and owner are kept. No other row changes, the mirror and current link get the new row, and a failure changes nothing. |
| LinksStore.DeactivateLinkAsWritten | src/stores/links.js:165-195 | As written, building the payload fails on `supabase.sql`, the error is caught, and the call fails with the store unchanged. |
| LinksStore.AsWrittenNeverConsumes | src/stores/links.js:172 | For a store holding one active link, the intended update consumes it and counts one access, while the code as written fails and leaves it active. |
| LinksStore.UpdateLink | src/stores/links.js:203-239 | Without a user the call fails. It succeeds iff exactly one row matches the id and the user. Only title, content and expiry change on that row; `is_active`, `access_count` and token are kept. Other rows are unchanged, and a failure changes nothing. |
| LinksStore.SetDeleted | src/stores/links.js:254-268 | `deleted_at` is set only on the single row with this id owned by the user. Every other column and every other row is unchanged, and the mirror gets the new row. |
| LinksStore.MoveToTrash | src/stores/links.js:246-276 | Trashing succeeds iff the owner's row exists, and it stamps `deleted_at` with now. A failure changes nothing. |
| LinksStore.RestoreFromTrash | src/stores/links.js:283-313 | Restoring succeeds iff the owner's row exists, and it clears `deleted_at`. A failure changes nothing. |
| LinksStore.DeleteLink | src/stores/links.js:320-348 | Without a user the call fails. Otherwise it always succeeds. The table keeps exactly the rows that do not have this id and owner, and the first mirror entry with the id, if there is one, is spliced out. With no such entry the mirror is unchanged. |
| LinksStore.FetchAndDeactivateLink | src/stores/links.js:66-88 | The call succeeds iff the reply holds at least one row, and then it returns the first row and makes it current. An error, null or empty reply clears the current link and fails; an empty reply fails as "link unavailable". The table and mirror are never touched. |
| LinksStore.FetchLinkByToken | src/stores/links.js:94-116 | The call succeeds iff exactly one active row has the token, and it returns that row unchanged. A failure clears the current link. |
| LinksStore.AppUrl | src/stores/links.js:356 | A configured non-empty app URL wins; otherwise the page origin is used. |
| LinksStore.LinkUrl | src/stores/links.js:355-358 | The link URL is the app URL, then `/link/`, then the token: the text after `/link/` is exactly the token. |
| LinksStore.LinkUrlRoundTrip | src/stores/links.js:355-358 | The token is recovered from its URL. A URL that yields a token is exactly that token's URL. |
| LinkLifecycle.ConsumedRejects | src/stores/links.js:174-179 | Once no row with the id is active, `deactivateLink` fails with no row matched and changes nothing. |
| LinkLifecycle.DeactivateConsumes | src/stores/links.js:169-175 | After a successful consume, no row with that id is active. |
| LinkLifecycle.ConsumeOnce | src/stores/links.js:174-194 | A second `deactivateLink` of the same id, right after a successful one, fails and leaves the whole store unchanged. |
| LinkLifecycle.StepKeepsConsumed | src/stores/links.js:122-348 | No store action reactivates a consumed id, except inserting a new row under the same id. |
| LinkLifecycle.RunKeepsConsumed | src/stores/links.js:122-348 | The consumed state of an id survives any sequence of actions that does not insert that id. |
| LinkLifecycle.ConsumedForever | src/stores/links.js:165-195 | At most one consumption: after a successful consume, every later `deactivateLink` of that id fails and changes nothing, whatever actions came between. |
| LinkLifecycle.DeactivateSucceedsIff | src/stores/links.js:174-177 | With unique ids, `deactivateLink` succeeds iff the row with that id is still active. |
| LinkLifecycle.StepKeepsUniqueIds | src/stores/links.js:122-348 | Every store action keeps primary keys unique. |
| LinkLifecycle.TrashRestoreRoundTrip | src/stores/links.js:254-305 | Take an untrashed row. Trashing it and then restoring it returns the original row and the original table, and the current link is kept. The mirror is restored too when its entry agreed with the table. |
| TokenGenerator.CharIndex | src/utils/tokenGenerator.js:12-17 | Each alphanumeric character has a position in the alphabet, computed from its code point, and the alphabet holds that character at that position. |
| TokenGenerator.AlphabetShape | src/utils/tokenGenerator.js:12 | The alphabet has 62 symbols, all alphanumeric, and each sits at the position `CharIndex` gives it. |
| TokenGenerator.AlphabetDistinct | src/utils/tokenGenerator.js:12 | No alphabet symbol repeats, so `value % 62` always picks a distinct valid symbol. |
| TokenGenerator.SecureToken | src/utils/tokenGenerator.js:11-19 | The token is as long as the random byte input, and every character is alphanumeric. |
| TokenGenerator.Token | src/utils/tokenGenerator.js:35-37 | `generateToken` yields exactly 32 alphanumeric characters. |
| TokenGenerator.TokenResidues | src/utils/tokenGenerator.js:16-18 | Decoding a token through the alphabet gives one residue below 62 per character. |
| TokenGenerator.SecureTokenResidues | src/utils/tokenGenerator.js:16-18 | Decoding a token gives back each random byte modulo 62. |
| TokenGenerator.SecureTokenEqual | src/utils/tokenGenerator.js:16-18 | Two byte strings give the same token iff their bytes agree modulo 62. |
| TokenGenerator.StripDashes | src/utils/tokenGenerator.js:27 | The result has no `-` and is no longer than the input. |
| TokenGenerator.UuidToken | src/utils/tokenGenerator.js:26-28 | `generateUuidToken` output has no `-`. |
| TokenGenerator.StripDashesAppend | src/utils/tokenGenerator.js:27 | Dash removal distributes over concatenation. |
| TokenGenerator.StripDashesNoDash | src/utils/tokenGenerator.js:27 | A string without dashes is unchanged by dash removal. |
| TokenGenerator.StripDashesIdempotent | src/utils/tokenGenerator.js:27 | Removing dashes twice is the same as removing them once. |
| TokenGenerator.StripDashesKeeps | src/utils/tokenGenerator.js:27 | Dash removal keeps every non-dash character; the multiset is the input's with the dashes taken out. |
| TokenGenerator.UuidTokenShape | src/utils/tokenGenerator.js:22-28 | For a canonical 8-4-4-4-12 UUID, the token is its five hex groups joined: 32 hex digits. |
| JsText.Trim | src/utils/validators.js:11 | `trim` never lengthens a string, and a non-empty result starts and ends with a non-whitespace character. |
| JsText.TrimSlice | src/utils/validators.js:11 | `trim` returns a contiguous slice of the input, and only whitespace is cut before and after it. |
| JsText.TrimEmptyIffBlank | src/utils/validators.js:11 | `trim().length === 0` holds exactly for strings made only of whitespace. |
| Validators.ValidateTitle | src/utils/validators.js:10-20 | `valid` holds iff `error` is null. The title is valid iff present, not blank and at most 200 characters long. The "required" error is reported iff it is missing or blank. A non-blank title over 200 characters gets the "too long" error. |
| Validators.ValidateHtmlContent | src/utils/validators.js:27-37 | `valid` holds iff `error` is null, and the content is valid iff present and not blank. Invalid content carries the "required" error and no warning. Valid content has a warning iff it is longer than 50000 characters. |
| Validators.EmailPatternIffSplit | src/utils/validators.js:49 | The executable scan accepts a string iff the regular expression does. That is, the string splits as `a@b.c` with `a`, `b` and `c` non-empty and free of whitespace and `@`. |
| Validators.ValidateEmail | src/utils/validators.js:44-55 | `valid` holds iff `error` is null, and the email is valid iff present and it splits as `a@b.c`. The "required" error is reported iff it is missing or blank. A non-blank email that does not split so gets the "malformed" error. |
| Validators.ValidatePassword | src/utils/validators.js:62-72 | `valid` holds iff `error` is null, and the password is valid iff present with at least 6 characters. The "required" error is reported iff it is missing or empty. A non-empty password under 6 characters gets the "too short" error. |
| Validators.ValidateExpiresAt | src/utils/validators.js:79-96 | `valid` holds iff `error` is null. An absent expiry is valid, and an unparseable one gets the parse error. A parsed expiry is valid iff it is strictly later than now; one at or before now gets the "not in the future" error. |
| ToastQueue.Show | src/composables/useToast.js:17-31 | The returned id is the counter plus one and becomes the new counter, and the toast is appended last with the type, `'info'` by default. |
| ToastQueue.Success | src/composables/useToast.js:52 | Shows the message with type `'success'` under a fresh id. |
| ToastQueue.Error | src/composables/useToast.js:53 | Shows the message with type `'error'` under a fresh id. |
| ToastQueue.Warning | src/composables/useToast.js:54 | Shows the message with type `'warning'` under a fresh id. |
| ToastQueue.Info | src/composables/useToast.js:55 | Shows the message with type `'info'` under a fresh id. |
| ToastQueue.IndexOfId | src/composables/useToast.js:38 | `findIndex` returns the first toast with the id, or -1 when none has it. |
| ToastQueue.Remove | src/composables/useToast.js:37-42 | `remove` keeps the counter and is a no-op when the id is absent. Otherwise exactly one toast goes, the first with that id: the toasts before it stay in place and the ones after it move up by one. |
| ToastQueue.SpliceOut | src/composables/useToast.js:38-41 | Nothing is removed when the id is absent. Otherwise exactly the first toast with that id is removed, and the rest keep their order. |
| ToastQueue.Clear | src/composables/useToast.js:47-49 | `clear` empties the list but keeps the counter, so later ids stay fresh. |
| ToastQueue.RemoveIsWithout | src/composables/useToast.js:37-42 | With distinct ids, the splice equals dropping the toasts with that id, and the rest keep their relative order. |
| ToastQueue.RemoveDropsId | src/composables/useToast.js:37-42 | On a valid queue, `remove(id)` drops exactly the toast with that id. |
| ToastQueue.ShowKeepsValid | src/composables/useToast.js:17-21 | `show` keeps ids strictly increasing and bounded by the counter. The id it returns is larger than every id in the list, so it is not already there. |
| ToastQueue.RemoveKeepsValid | src/composables/useToast.js:37-42 | `remove` keeps ids strictly increasing and bounded by the counter. |
| ToastQueue.ClearKeepsValid | src/composables/useToast.js:47-49 | `clear` keeps the queue invariant. |
| ToastQueue.Run | src/composables/useToast.js:5-30 | Over any sequence of show/remove/clear calls, the counter never decreases. The returned ids strictly increase, and each is above the starting counter. |
| ToastQueue.RunKeepsValid | src/composables/useToast.js:17-49 | Every sequence of operations keeps the queue invariant. |
| Router.RouteNamed | src/router/index.js:4-51 | Looking up a name returns a registered route with that name, or None when no route has it. |
| Router.Guard | src/router/index.js:62-88 | The guard redirects to `home` iff some matched route requires auth and the user is signed out. It redirects to `dashboard` iff some matched route requires a guest and the user is signed in, and proceeds otherwise. |
| Router.FlagsExclusive | src/router/index.js:4-51 | No route asks for both a signed-in user and a guest. |
| Router.LinkPageAlwaysOpens | src/router/index.js:41-46 | The `/link/:token` page has neither flag and opens whatever the auth state. |
| Router.NoRedirectLoop | src/router/index.js:5-85 | Every redirect names a registered route that the guard lets through under the same auth state. |
| Theme.ThemeName | src/stores/theme.js:11 | `theme` is `'dark'` iff `isDark`, and `'light'` otherwise. |
| Theme.Initialize | src/stores/theme.js:17-26 | A stored preference wins: `isDark` holds iff it is `'dark'`. With nothing stored, the system preference is used. |
| Theme.Toggle | src/stores/theme.js:43-47 | `toggle` flips `isDark` and stores the name of the new theme. |
| Theme.SetTheme | src/stores/theme.js:53-57 | `setTheme` makes `isDark` hold iff the name is `'dark'`, and stores the name verbatim. |
| Theme.SystemPreferenceChanged | src/stores/theme.js:32-37 | A system change is adopted only when nothing is stored; otherwise the state is unchanged. |
| Theme.ToggleTwice | src/stores/theme.js:43-46 | Toggling twice restores `isDark` and stores its theme name. |
| Theme.TransitionsKeepConsistent | src/stores/theme.js:17-57 | Initialization establishes, and every transition keeps, agreement between `isDark` and a present stored value. |

## Left out

- `fetchLinks` and `clearLinks` (src/stores/links.js:34-59, 363-366) are not modelled. `fetchLinks` orders rows by `created_at`, which is not a modelled column. `clearLinks` only resets the in-memory state.
- The body of the server-side `fetch_and_deactivate_link` call is not part of this model. Its reply is an input, so the modelled table only changes on the client-side `deactivateLink` path.
- Concurrency is not modelled. Actions run one after another, and single use rests on the `is_active` filter being applied within the one update statement.
- Query failures other than `.single()` row counts and primary-key collisions are not modelled, for example network errors or row-level security.
- Updates matching more than one row are modelled as rejected with the table unchanged, which assumes PostgREST rolls back a singular-response mismatch. Ids are primary keys, so this case never arises; `LinkLifecycle.StepKeepsUniqueIds` shows that ids stay unique.
- The source distinguishes thrown errors (a missing user in most actions) from errors returned as `{ data: null, error }`. Both are `Err` in the model.
- The `loading` flags, console logging and Vue reactivity are not modelled.
- Validators.ValidateTitle, ValidateHtmlContent, ValidateEmail and ValidatePassword: string lengths count Unicode scalar values, whereas JavaScript counts UTF-16 code units. The two differ for characters outside the Basic Multilingual Plane.
- Validators.ValidateExpiresAt: dates are integer timestamps, and `new Date(...)` parsing is an abstract optional value. The wall clock is the `now` parameter.
- The Japanese error messages are represented by `ValidationError` constructors, not by their text.
- `updateLink` with an omitted field is not modelled: JSON serialisation drops `undefined`, which would leave that column alone. The model always writes all three columns.
- `crypto.getRandomValues` and `crypto.randomUUID` become inputs. No claim is made about uniformity; `% 62` has a modulo bias.
- Toast `duration` and the `setTimeout` auto-dismissal are not modelled separately; a dismissal is a later `remove(id)`.
- In the theme store, `applyTheme` (DOM class toggling), the `watch` on `isDark` and the `matchMedia` listener registration are not modelled. `localStorage` is a single stored value.
- In the router, path matching, awaiting `authStore.initialize()`, lazy component imports and the catch-all redirect target are not modelled. A navigation is given by its matched routes and the auth flag.
- src/stores/auth.js and src/composables/useSupabase.js only forward to the Supabase client and are not part of this model.
- Some checks are absent from the code, so they are absent from the model too:
  - `deactivateLink` filters only on `id` and `is_active` (src/stores/links.js:174-175). An expired or trashed link is still consumed.
  - `updateLink` filters only on `id` and `user_id` (src/stores/links.js:220-221). A consumed or trashed link can still be edited.
  - `moveToTrash` always writes the current time (src/stores/links.js:256). Trashing a trashed link stamps `deleted_at` again.
- LinksStore.DeactivateLink: this models the update the code evidently intends, with `access_count` one higher. As written, the payload cannot be built (see Findings); `LinksStore.DeactivateLinkAsWritten` models that behaviour.

## Findings

| source | as written | input that shows it | evidently intended | confidence | as-written member | corrected member |
|---|---|---|---|---|---|---|
| src/stores/links.js:172 | The update payload sets ``access_count: supabase.sql`access_count + 1` ``. The client from src/composables/useSupabase.js:22 is a plain supabase-js client with no `sql` member, so the tag call throws a TypeError inside the `try`. The catch at lines 192-194 returns `{ data: null, error }`. | Any call, e.g. `deactivateLink('l1')` on a table whose row `l1` is active: the call fails and the row stays active, unaccessed. | One update that sets `is_active` false, stamps `accessed_at` and increments `access_count`, on the single active row with that id. | not executed | LinksStore.DeactivateLinkAsWritten, LinksStore.AsWrittenNeverConsumes | LinksStore.DeactivateLink |

=== FILE: js_text.dfy ===
/** The pieces of JavaScript string semantics the validators rely on:
    the whitespace class shared by `String.prototype.trim` and the regular
    expression escape `\s`, and `trim` itself. */
module JsText {

  /** ECMAScript WhiteSpace and LineTerminator code points: exactly the
      characters `trim` strips and `\s` matches. */
  predicate IsWhitespace(c: char) {
    || c == '\t' || c == '\n' || c == '\U{000B}' || c == '\U{000C}' || c == '\r'
    || c == ' ' || c == '\U{00A0}' || c == '\U{1680}'
    || ('\U{2000}' <= c <= '\U{200A}')
    || c == '\U{2028}' || c == '\U{2029}' || c == '\U{202F}' || c == '\U{205F}'
    || c == '\U{3000}' || c == '\U{FEFF}'
  }

  /** Every character of `s` is whitespace (vacuously true of ""). */
  predicate IsBlank(s: string) {
    forall i :: 0 <= i < |s| ==> IsWhitespace(s[i])
  }

  /** `s` without its leading whitespace. */
  function TrimStart(s: string): (r: string)
    ensures |r| <= |s| && r == s[|s| - |r|..]
    ensures |r| > 0 ==> !IsWhitespace(r[0])
    ensures IsBlank(s[..|s| - |r|])
  {
    if |s| > 0 && IsWhitespace(s[0]) then TrimStart(s[1..]) else s
  }

  /** `s` without its trailing whitespace. */
  function TrimEnd(s: string): (r: string)
    ensures |r| <= |s| && r == s[..|r|]
    ensures |r| > 0 ==> !IsWhitespace(r[|r| - 1])
    ensures IsBlank(s[|r|..])
  {
    if |s| > 0 && IsWhitespace(s[|s| - 1]) then TrimEnd(s[..|s| - 1]) else s
  }

  /** `String.prototype.trim`. */
  function Trim(s: string): (r: string)
    ensures |r| <= |s|
    ensures |r| > 0 ==> !IsWhitespace(r[0]) && !IsWhitespace(r[|r| - 1])
  {
    TrimEnd(TrimStart(s))
  }

  /** Where `trim`'s result sits inside `s`: a contiguous slice preceded and
      followed only by whitespace. */
  lemma TrimSlice(s: string)
    ensures |s| - |TrimStart(s)| + |Trim(s)| <= |s|
    ensures Trim(s) == s[|s| - |TrimStart(s)|..|s| - |TrimStart(s)| + |Trim(s)|]
    ensures IsBlank(s[..|s| - |TrimStart(s)|]) && IsBlank(s[|s| - |TrimStart(s)| + |Trim(s)|..])
  {
    var t := TrimStart(s);
    PrefixOfSuffix(s, |s| - |t|, t, TrimEnd(t));
  }

  /** A prefix `r` of the suffix `t == s[a..]` that leaves only whitespace
      behind in `t` is the slice `s[a..a + |r|]` and leaves only whitespace behind in `s`. */
  lemma PrefixOfSuffix(s: string, a: nat, t: string, r: string)
    requires a <= |s| && t == s[a..] && |r| <= |t|
    requires r == t[..|r|] && IsBlank(t[|r|..])
    ensures r == s[a..a + |r|] && IsBlank(s[a + |r|..])
  {
    assert t[|r|..] == s[a + |r|..];
  }

  /** `s.trim().length === 0` holds exactly for strings made only of whitespace. */
  lemma TrimEmptyIffBlank(s: string)
    ensures |Trim(s)| == 0 <==> IsBlank(s)
  {
    var t := TrimStart(s);
    if |Trim(s)| == 0 {
      assert IsBlank(t[0..]);
      assert s == s[..|s| - |t|] + t;
    }
    if IsBlank(s) {
      BlankTrimStart(s);
    }
  }

  lemma {:induction false} BlankTrimStart(s: string)
    requires IsBlank(s)
    ensures TrimStart(s) == ""
  {
    if |s| > 0 {
      BlankTrimStart(s[1..]);
    }
  }
}

=== FILE: link_lifecycle.dfy ===
/** What the store actions of src/stores/links.js guarantee together: a link is
    consumed at most once, trashing is undone by restoring, and primary keys
    stay unique. The server-side consume call is abstract here, so only the
    client-side `deactivateLink` path changes the modelled table. */
module LinkLifecycle {
  import opened Wrappers
  import opened LinkTable
  import opened LinksStore
  import TokenGenerator

  /** No row with this id is still active. */
  ghost predicate Consumed(t: Table, id: Id) {
    forall r :: r in t && r.id == id ==> !r.is_active
  }

  /** No row left means a count of zero. */
  lemma NoneSelected(t: Table, filters: seq<Eq>)
    requires forall j :: 0 <= j < |t| ==> !Matches(t[j], filters)
    ensures MatchCount(t, filters) == 0
  {
    assert FirstMatch(t, filters) == -1;
  }

  /** Once no row with the id is active, `deactivateLink` fails and changes nothing. */
  lemma ConsumedRejects(s: Store, id: Id, now: Timestamp)
    requires Consumed(s.table, id)
    ensures DeactivateLink(s, id, now) == Reply(s, Err(QueryFailed(NotSingle(0))))
  {
    assert forall j :: 0 <= j < |s.table| ==> s.table[j] in s.table;
    NoneSelected(s.table, ConsumeFilter(id));
  }

  /** A successful `deactivateLink` leaves no active row with that id. */
  lemma DeactivateConsumes(s: Store, id: Id, now: Timestamp)
    requires DeactivateLink(s, id, now).result.Ok?
    ensures Consumed(DeactivateLink(s, id, now).store.table, id)
  {
    var t := s.table;
    var t' := DeactivateLink(s, id, now).store.table;
    var k := FirstMatch(t, ConsumeFilter(id));
    SingleMatchIsUnique(t, ConsumeFilter(id));
    forall r | r in t' && r.id == id
      ensures !r.is_active
    {
      var j :| 0 <= j < |t'| && t'[j] == r;
      if j != k {
        assert !Matches(t[j], ConsumeFilter(id));
      }
    }
  }

  /** Single use: right after a successful consume, consuming the same id again
      fails and leaves the store exactly as it was. */
  lemma ConsumeOnce(s: Store, id: Id, now: Timestamp, later: Timestamp)
    requires DeactivateLink(s, id, now).result.Ok?
    ensures var s1 := DeactivateLink(s, id, now).store;
      DeactivateLink(s1, id, later) == Reply(s1, Err(QueryFailed(NotSingle(0))))
  {
    DeactivateConsumes(s, id, now);
    ConsumedRejects(DeactivateLink(s, id, now).store, id, later);
  }

  /** Every store action a client can issue. */
  datatype Action =
    | Create(user: Option<Id>, newId: Id, random: TokenGenerator.TokenBytes, title: string, html: string, expiresAt: Option<Timestamp>)
    | Deactivate(id: Id, now: Timestamp)
    | Update(user: Option<Id>, id: Id, title: string, html: string, expiresAt: Option<Timestamp>)
    | Trash(user: Option<Id>, id: Id, now: Timestamp)
    | Restore(user: Option<Id>, id: Id)
    | Delete(user: Option<Id>, id: Id)
    | ConsumeByRpc(reply: RpcReply)
    | ReadByToken(token: string)

  function Step(s: Store, a: Action): Store {
    match a
    case Create(u, newId, random, title, html, exp) => CreateLink(s, u, newId, random, title, html, exp).store
    case Deactivate(id, now) => DeactivateLink(s, id, now).store
    case Update(u, id, title, html, exp) => UpdateLink(s, u, id, title, html, exp).store
    case Trash(u, id, now) => MoveToTrash(s, u, id, now).store
    case Restore(u, id) => RestoreFromTrash(s, u, id).store
    case Delete(u, id) => DeleteLink(s, u, id).store
    case ConsumeByRpc(reply) => FetchAndDeactivateLink(s, reply).store
    case ReadByToken(token) => FetchLinkByToken(s, token).store
  }

  function Run(s: Store, acts: seq<Action>): Store
    decreases |acts|
  {
    if |acts| == 0 then s else Run(Step(s, acts[0]), acts[1..])
  }

  /** Does the action insert a row under this id? */
  predicate CreatesId(a: Action, id: Id) {
    a.Create? && a.newId == id
  }

  /** A single-row update whose patch is not a consume never touches `is_active`. */
  lemma PatchedRowsKeepActivity(t: Table, t': Table, k: int, row: LinkRecord, id: Id)
    requires Consumed(t, id)
    requires 0 <= k < |t| && |t'| == |t| && t'[k] == row
    requires row.id == t[k].id && row.is_active == t[k].is_active
    requires forall j :: 0 <= j < |t| && j != k ==> t'[j] == t[j]
    ensures Consumed(t', id)
  {
    forall r | r in t' && r.id == id
      ensures !r.is_active
    {
      var j :| 0 <= j < |t'| && t'[j] == r;
      assert t[j] in t;
    }
  }

  /** No action except inserting a row under the same id reactivates a consumed link. */
  lemma StepKeepsConsumed(s: Store, a: Action, id: Id)
    requires Consumed(s.table, id)
    requires !CreatesId(a, id)
    ensures Consumed(Step(s, a).table, id)
  {
    match a
    case Create(u, newId, random, title, html, exp) =>
    case Deactivate(id', now) =>
      var r := DeactivateLink(s, id', now);
      if r.result.Ok? {
        var k := FirstMatch(s.table, ConsumeFilter(id'));
        forall x | x in r.store.table && x.id == id
          ensures !x.is_active
        {
          var j :| 0 <= j < |r.store.table| && r.store.table[j] == x;
          assert s.table[j] in s.table;
        }
      }
    case Update(u, id', title, html, exp) =>
      var r := UpdateLink(s, u, id', title, html, exp);
      if r.result.Ok? {
        PatchedRowsKeepActivity(s.table, r.store.table, FirstMatch(s.table, OwnerFilter(id', u.value)), r.result.value, id);
      }
    case Trash(u, id', now) =>
      var r := SetDeleted(s, u, id', Some(now));
      if r.result.Ok? {
        PatchedRowsKeepActivity(s.table, r.store.table, FirstMatch(s.table, OwnerFilter(id', u.value)), r.result.value, id);
      }
    case Restore(u, id') =>
      var r := SetDeleted(s, u, id', None);
      if r.result.Ok? {
        PatchedRowsKeepActivity(s.table, r.store.table, FirstMatch(s.table, OwnerFilter(id', u.value)), r.result.value, id);
      }
    case Delete(u, id') =>
    case ConsumeByRpc(reply) =>
    case ReadByToken(token) =>
  }

  lemma {:induction false} RunKeepsConsumed(s: Store, acts: seq<Action>, id: Id)
    requires Consumed(s.table, id)
    requires forall i :: 0 <= i < |acts| ==> !CreatesId(acts[i], id)
    ensures Consumed(Run(s, acts).table, id)
    decreases |acts|
  {
    if |acts| > 0 {
      StepKeepsConsumed(s, acts[0], id);
      RunKeepsConsumed(Step(s, acts[0]), acts[1..], id);
    }
  }

  /** At most one consumption: after a successful `deactivateLink(id)`, whatever
      edits, trashing, restoring, deleting, reads and other consumptions follow,
      a later `deactivateLink(id)` fails and changes nothing, unless a new row
      was inserted under the same id. */
  lemma ConsumedForever(s: Store, id: Id, now: Timestamp, acts: seq<Action>, later: Timestamp)
    requires DeactivateLink(s, id, now).result.Ok?
    requires forall i :: 0 <= i < |acts| ==> !CreatesId(acts[i], id)
    ensures var s2 := Run(DeactivateLink(s, id, now).store, acts);
      DeactivateLink(s2, id, later) == Reply(s2, Err(QueryFailed(NotSingle(0))))
  {
    DeactivateConsumes(s, id, now);
    RunKeepsConsumed(DeactivateLink(s, id, now).store, acts, id);
    ConsumedRejects(Run(DeactivateLink(s, id, now).store, acts), id, later);
  }

  /** With unique ids, `deactivateLink(id)` succeeds exactly when the row with
      that id is still active. */
  lemma DeactivateSucceedsIff(s: Store, id: Id, now: Timestamp)
    requires UniqueIds(s.table)
    ensures DeactivateLink(s, id, now).result.Ok? <==> exists r :: r in s.table && r.id == id && r.is_active
  {
    if r :| r in s.table && r.id == id && r.is_active {
      var k :| 0 <= k < |s.table| && s.table[k] == r;
      UniqueIdsSingle(s.table, ConsumeFilter(id), id, k);
    }
    if DeactivateLink(s, id, now).result.Ok? {
      assert s.table[FirstMatch(s.table, ConsumeFilter(id))] in s.table;
    }
  }

  /** A single-row patch that keeps the id keeps the ids unique. */
  lemma PatchKeepsUnique(t: Table, t': Table, k: int)
    requires UniqueIds(t)
    requires 0 <= k < |t| && |t'| == |t| && t'[k].id == t[k].id
    requires forall j :: 0 <= j < |t| && j != k ==> t'[j] == t[j]
    ensures UniqueIds(t')
  {
  }

  /** Every action keeps primary keys unique. */
  lemma StepKeepsUniqueIds(s: Store, a: Action)
    requires UniqueIds(s.table)
    ensures UniqueIds(Step(s, a).table)
  {
    match a
    case Create(u, newId, random, title, html, exp) =>
      var r := CreateLink(s, u, newId, random, title, html, exp);
      if r.result.Ok? {
        var t' := r.store.table;
        forall i, j | 0 <= i < j < |t'|
          ensures t'[i].id != t'[j].id
        {
          if j == |s.table| {
            assert !HasId(s.table, newId);
          }
        }
      }
    case Deactivate(id, now) =>
      var r := DeactivateLink(s, id, now);
      if r.result.Ok? {
        PatchKeepsUnique(s.table, r.store.table, FirstMatch(s.table, ConsumeFilter(id)));
      }
    case Update(u, id, title, html, exp) =>
      var r := UpdateLink(s, u, id, title, html, exp);
      if r.result.Ok? {
        PatchKeepsUnique(s.table, r.store.table, FirstMatch(s.table, OwnerFilter(id, u.value)));
      }
    case Trash(u, id, now) =>
      var r := SetDeleted(s, u, id, Some(now));
      if r.result.Ok? {
        PatchKeepsUnique(s.table, r.store.table, FirstMatch(s.table, OwnerFilter(id, u.value)));
      }
    case Restore(u, id) =>
      var r := SetDeleted(s, u, id, None);
      if r.result.Ok? {
        PatchKeepsUnique(s.table, r.store.table, FirstMatch(s.table, OwnerFilter(id, u.value)));
      }
    case Delete(u, id) =>
    case ConsumeByRpc(reply) =>
    case ReadByToken(token) =>
  }

  /** Trash then restore: for a row that was not in the trash, restoring right
      after trashing succeeds, gives back the original row, and leaves the table
      as it was; the mirror comes back too when its entry agreed with the table. */
  lemma TrashRestoreRoundTrip(s: Store, user: Id, id: Id, now: Timestamp)
    requires MoveToTrash(s, Some(user), id, now).result.Ok?
    requires s.table[FirstMatch(s.table, OwnerFilter(id, user))].deleted_at.None?
    ensures var s1 := MoveToTrash(s, Some(user), id, now).store;
      var r2 := RestoreFromTrash(s1, Some(user), id);
      && r2.result == Ok(s.table[FirstMatch(s.table, OwnerFilter(id, user))])
      && r2.store.table == s.table
      && r2.store.current == s.current
      && (IndexById(s.links, id) == -1 || s.links[IndexById(s.links, id)] == s.table[FirstMatch(s.table, OwnerFilter(id, user))]
          ==> r2.store.links == s.links)
  {
    var f := OwnerFilter(id, user);
    var k := FirstMatch(s.table, f);
    var r1 := SetDeleted(s, Some(user), id, Some(now));
    var s1 := r1.store;
    SameSelection(s.table, s1.table, f);
    var r2 := SetDeleted(s1, Some(user), id, None);
    assert r2.result.value == s.table[k];
    assert r2.store.table == s.table;
    var m := IndexById(s.links, id);
    if m >= 0 {
      assert IndexById(s1.links, id) == m by {
        SameSelection(s.links, s1.links, IdFilter(id));
      }
    }
  }
}

=== FILE: link_table.dfy ===
/** The `once_links` table as the store's queries see it (src/stores/links.js):
    a sequence of rows, PostgREST-style `.eq(column, value)` filters, updates
    that map over the matching rows, and `.single()`, which insists that
    exactly one row came back. */
module LinkTable {
  import opened Wrappers

  type Id = string
  /** A timestamp, in milliseconds; the source's ISO strings are not modelled. */
  type Timestamp = int

  /** One row of `once_links`. */
  datatype LinkRecord = LinkRecord(
    id: Id,
    user_id: Id,
    token: string,
    title: string,
    html_content: string,
    expires_at: Option<Timestamp>,
    is_active: bool,
    access_count: nat,
    accessed_at: Option<Timestamp>,
    deleted_at: Option<Timestamp>)

  type Table = seq<LinkRecord>

  /** One `.eq(column, value)` condition. */
  datatype Eq =
    | IdIs(id: Id)
    | UserIs(user: Id)
    | TokenIs(token: string)
    | ActiveIs(active: bool)

  predicate Holds(r: LinkRecord, e: Eq) {
    match e
    case IdIs(id) => r.id == id
    case UserIs(u) => r.user_id == u
    case TokenIs(t) => r.token == t
    case ActiveIs(a) => r.is_active == a
  }

  /** A row matches a chain of `.eq` filters when it satisfies every one of them. */
  predicate Matches(r: LinkRecord, filters: seq<Eq>) {
    forall k :: 0 <= k < |filters| ==> Holds(r, filters[k])
  }

  /** The column assignments of an `.update({...})`. */
  datatype Patch =
    /** `{ is_active: false, accessed_at: now, access_count: access_count + 1 }` */
    | Consume(at: Timestamp)
    /** `{ title, html_content, expires_at }` */
    | Edit(title: string, html_content: string, expires_at: Option<Timestamp>)
    /** `{ deleted_at: ... }`: a timestamp to trash, `null` to restore. */
    | SetDeletedAt(deleted_at: Option<Timestamp>)

  /** The row after an update: each payload writes its own columns and keeps every other. */
  function Apply(r: LinkRecord, p: Patch): (r': LinkRecord)
    ensures r'.id == r.id && r'.user_id == r.user_id && r'.token == r.token
    ensures p.Consume? ==>
      && !r'.is_active && r'.accessed_at == Some(p.at) && r'.access_count == r.access_count + 1
      && r'.title == r.title && r'.html_content == r.html_content
      && r'.expires_at == r.expires_at && r'.deleted_at == r.deleted_at
    ensures p.Edit? ==>
      && r'.title == p.title && r'.html_content == p.html_content && r'.expires_at == p.expires_at
      && r'.is_active == r.is_active && r'.access_count == r.access_count
      && r'.accessed_at == r.accessed_at && r'.deleted_at == r.deleted_at
    ensures p.SetDeletedAt? ==> r'.deleted_at == p.deleted_at && r'.(deleted_at := r.deleted_at) == r
  {
    match p
    case Consume(at) => r.(is_active := false, accessed_at := Some(at), access_count := r.access_count + 1)
    case Edit(t, h, e) => r.(title := t, html_content := h, expires_at := e)
    case SetDeletedAt(d) => r.(deleted_at := d)
  }

  /** How many rows of `t` the filters select. */
  function MatchCount(t: Table, filters: seq<Eq>): (n: nat)
    ensures n <= |t|
  {
    if |t| == 0 then 0
    else (if Matches(t[0], filters) then 1 else 0) + MatchCount(t[1..], filters)
  }

  /** The index of the first row the filters select, or -1 (`findIndex`). */
  function FirstMatch(t: Table, filters: seq<Eq>): (k: int)
    ensures -1 <= k < |t|
    ensures k >= 0 ==> Matches(t[k], filters)
    ensures forall j :: 0 <= j < |t| && (k == -1 || j < k) ==> !Matches(t[j], filters)
    ensures k == -1 <==> MatchCount(t, filters) == 0
  {
    if |t| == 0 then -1
    else if Matches(t[0], filters) then 0
    else
      var k := FirstMatch(t[1..], filters);
      if k == -1 then -1 else k + 1
  }

  /** When the count is one, the first match is the only match. */
  lemma {:induction false} SingleMatchIsUnique(t: Table, filters: seq<Eq>)
    requires MatchCount(t, filters) == 1
    ensures FirstMatch(t, filters) >= 0
    ensures forall j :: 0 <= j < |t| && j != FirstMatch(t, filters) ==> !Matches(t[j], filters)
  {
    if !Matches(t[0], filters) {
      SingleMatchIsUnique(t[1..], filters);
    } else {
      assert FirstMatch(t[1..], filters) == -1;
    }
    assert forall j :: 1 <= j < |t| ==> t[j] == t[1..][j - 1];
  }

  /** Two tables of the same length that the filters select row for row alike
      have the same count and the same first match. */
  lemma {:induction false} SameSelection(t: Table, t': Table, filters: seq<Eq>)
    requires |t| == |t'|
    requires forall j :: 0 <= j < |t| ==> (Matches(t[j], filters) <==> Matches(t'[j], filters))
    ensures MatchCount(t, filters) == MatchCount(t', filters)
    ensures FirstMatch(t, filters) == FirstMatch(t', filters)
  {
    if |t| > 0 {
      assert forall j :: 1 <= j < |t| ==> t[j] == t[1..][j - 1] && t'[j] == t'[1..][j - 1];
      SameSelection(t[1..], t'[1..], filters);
    }
  }

  /** Primary keys are distinct: no two rows share an id. */
  predicate UniqueIds(t: Table) {
    forall i, j :: 0 <= i < j < |t| ==> t[i].id != t[j].id
  }

  /** Under unique ids, filters that pin the id select at most one row, so one
      selected row means the count is exactly one. */
  lemma {:induction false} UniqueIdsSingle(t: Table, filters: seq<Eq>, id: Id, k: nat)
    requires UniqueIds(t)
    requires forall r :: Matches(r, filters) ==> r.id == id
    requires k < |t| && Matches(t[k], filters)
    ensures MatchCount(t, filters) == 1
  {
    if k == 0 {
      assert forall j :: 0 <= j < |t[1..]| ==> t[1..][j] == t[j + 1] && t[j + 1].id != t[0].id;
      assert FirstMatch(t[1..], filters) == -1;
    } else {
      assert t[k] == t[1..][k - 1];
      assert UniqueIds(t[1..]) by {
        assert forall j :: 0 <= j < |t[1..]| ==> t[1..][j] == t[j + 1];
      }
      UniqueIdsSingle(t[1..], filters, id, k - 1);
      assert t[0].id != t[k].id;
    }
  }

  /** `.update(patch)` followed by the `.eq` chain: every matching row is patched. */
  function UpdateWhere(t: Table, filters: seq<Eq>, p: Patch): (t': Table)
    ensures |t'| == |t|
  {
    seq(|t|, i requires 0 <= i < |t| => if Matches(t[i], filters) then Apply(t[i], p) else t[i])
  }

  /** Why a query failed. */
  datatype QueryError =
    /** `.single()` saw no row, or more than one (PostgREST error PGRST116). */
    | NotSingle(rows: nat)
    /** The insert collided with an existing primary key. */
    | DuplicateId

  /** `.update(patch).eq(...).select().single()`: succeeds when exactly one row
      matches, returning the table with that row patched and the patched row.
      Otherwise the statement is rejected and the table is left as it was. */
  function UpdateSingle(t: Table, filters: seq<Eq>, p: Patch): (r: Result<(Table, LinkRecord), QueryError>)
    ensures r.Ok? <==> MatchCount(t, filters) == 1
    ensures r.Err? ==> r.error == NotSingle(MatchCount(t, filters))
    ensures r.Ok? ==>
      var (t', row) := r.value;
      var k := FirstMatch(t, filters);
      && 0 <= k < |t| && |t'| == |t|
      && t'[k] == row == Apply(t[k], p)
      && forall j :: 0 <= j < |t| && j != k ==> t'[j] == t[j]
  {
    var n := MatchCount(t, filters);
    if n != 1 then Err(NotSingle(n))
    else
      SingleMatchIsUnique(t, filters);
      var k := FirstMatch(t, filters);
      Ok((UpdateWhere(t, filters, p), Apply(t[k], p)))
  }

  /** `.select('*').eq(...).single()`: the one matching row, read without change. */
  function SelectSingle(t: Table, filters: seq<Eq>): (r: Result<LinkRecord, QueryError>)
    ensures r.Ok? <==> MatchCount(t, filters) == 1
    ensures r.Ok? ==> r.value in t && Matches(r.value, filters)
  {
    var n := MatchCount(t, filters);
    if n != 1 then Err(NotSingle(n))
    else
      Ok(t[FirstMatch(t, filters)])
  }

  /** `.delete().eq(...)`: removes every matching row; no `.single()`, so
      deleting nothing is not an error. */
  function DeleteWhere(t: Table, filters: seq<Eq>): (t': Table)
    ensures |t'| == |t| - MatchCount(t, filters)
    ensures forall r :: r in t' <==> r in t && !Matches(r, filters)
    ensures UniqueIds(t) ==> UniqueIds(t')
  {
    if |t| == 0 then []
    else if Matches(t[0], filters) then DeleteWhere(t[1..], filters)
    else
      var rest := DeleteWhere(t[1..], filters);
      assert UniqueIds(t) ==> UniqueIds(t[1..]) && forall j :: 0 <= j < |t[1..]| ==> t[1..][j].id != t[0].id by {
        assert forall j :: 0 <= j < |t[1..]| ==> t[1..][j] == t[j + 1];
      }
      assert forall j :: 1 <= j < |[t[0]] + rest| ==> ([t[0]] + rest)[j] in rest;
      [t[0]] + rest
  }

  /** Does any row already carry this primary key? */
  predicate HasId(t: Table, id: Id) {
    exists k :: 0 <= k < |t| && t[k].id == id
  }

  /** `.insert([row]).select().single()`: the row is stored unless its primary
      key is taken. */
  function InsertRow(t: Table, row: LinkRecord): (r: Result<Table, QueryError>)
    ensures r.Ok? <==> !HasId(t, row.id)
    ensures r.Ok? ==> r.value == t + [row]
  {
    if HasId(t, row.id) then Err(DuplicateId) else Ok(t + [row])
  }
}

=== FILE: links_store.dfy ===
/** The links store (src/stores/links.js): the actions that change the
    `once_links` table, the process-local mirror `links` they keep in step,
    the derived listings, and the public link URL. The authenticated user,
    the clock, the random bytes and the server-side consume call's reply are
    parameters. */
module LinksStore {
  import opened Wrappers
  import opened Seqs
  import opened LinkTable
  import TokenGenerator

  /** The persistent table together with the store's in-memory state. */
  datatype Store = Store(table: Table, links: seq<LinkRecord>, current: Option<LinkRecord>)

  datatype StoreError =
    /** Thrown before any query when no user is signed in. */
    | NotAuthenticated
    /** The query reported an error. */
    | QueryFailed(cause: QueryError)
    /** The consume call reported an error of its own. */
    | RpcFailed
    /** The consume call returned no row: already used, or no such link. */
    | LinkUnavailable
    /** Building the update payload threw before any query was sent. */
    | ClientError

  /** What an action leaves behind and what it hands back to its caller. */
  datatype Reply<T> = Reply(store: Store, result: Result<T, StoreError>)

  // ---------------------------------------------------------------------------
  // The local mirror

  /** `links.findIndex(link => link.id === id)`. */
  function IndexById(links: seq<LinkRecord>, id: Id): (k: int)
    ensures -1 <= k < |links|
    ensures k >= 0 ==> links[k].id == id
    ensures forall j :: 0 <= j < |links| && (k == -1 || j < k) ==> links[j].id != id
  {
    FirstMatch(links, IdFilter(id))
  }

  /** `links.value.unshift(row)`. */
  function Prepend(links: seq<LinkRecord>, row: LinkRecord): (r: seq<LinkRecord>)
    ensures |r| == |links| + 1 && r[0] == row && r[1..] == links
  {
    [row] + links
  }

  /** `if (index > -1) links.value[index] = row`: the first entry with that id
      is replaced, nothing else moves. */
  function ReplaceById(links: seq<LinkRecord>, id: Id, row: LinkRecord): (r: seq<LinkRecord>)
    ensures |r| == |links|
    ensures IndexById(links, id) == -1 ==> r == links
    ensures IndexById(links, id) >= 0 ==> r[IndexById(links, id)] == row
    ensures forall j :: 0 <= j < |links| && j != IndexById(links, id) ==> r[j] == links[j]
  {
    var k := IndexById(links, id);
    if k > -1 then links[k := row] else links
  }

  /** `if (index > -1) links.value.splice(index, 1)`: exactly one entry, the
      first with that id, leaves the mirror; the rest keep their order. */
  function RemoveById(links: seq<LinkRecord>, id: Id): (r: seq<LinkRecord>)
    ensures IndexById(links, id) == -1 ==> r == links
    ensures IndexById(links, id) >= 0 ==>
      && |r| == |links| - 1
      && multiset(r) == multiset(links) - multiset{links[IndexById(links, id)]}
      && (forall j :: 0 <= j < IndexById(links, id) ==> r[j] == links[j])
      && (forall j :: IndexById(links, id) <= j < |r| ==> r[j] == links[j + 1])
  {
    var k := IndexById(links, id);
    if k > -1 then
      assert links == links[..k] + [links[k]] + links[k+1..];
      links[..k] + links[k+1..]
    else links
  }

  // ---------------------------------------------------------------------------
  // Getters

  predicate IsDeleted(r: LinkRecord) { r.deleted_at.Some? }
  predicate IsActiveListed(r: LinkRecord) { r.is_active && r.deleted_at.None? }
  predicate IsInactiveListed(r: LinkRecord) { !r.is_active && r.deleted_at.None? }
  predicate IsNotDeleted(r: LinkRecord) { r.deleted_at.None? }

  /** `activeLinks`: live, not trashed. */
  function ActiveLinks(links: seq<LinkRecord>): (r: seq<LinkRecord>)
    ensures forall x :: x in r <==> x in links && x.is_active && x.deleted_at.None?
  {
    forall x ensures x in Filter(links, IsActiveListed) <==> x in links && IsActiveListed(x) {
      FilterMembership(links, IsActiveListed, x);
    }
    Filter(links, IsActiveListed)
  }

  /** `inactiveLinks`: consumed, not trashed. */
  function InactiveLinks(links: seq<LinkRecord>): (r: seq<LinkRecord>)
    ensures forall x :: x in r <==> x in links && !x.is_active && x.deleted_at.None?
  {
    forall x ensures x in Filter(links, IsInactiveListed) <==> x in links && IsInactiveListed(x) {
      FilterMembership(links, IsInactiveListed, x);
    }
    Filter(links, IsInactiveListed)
  }

  /** `deletedLinks`: in the trash, whatever their activity. */
  function DeletedLinks(links: seq<LinkRecord>): (r: seq<LinkRecord>)
    ensures forall x :: x in r <==> x in links && x.deleted_at.Some?
  {
    forall x ensures x in Filter(links, IsDeleted) <==> x in links && IsDeleted(x) {
      FilterMembership(links, IsDeleted, x);
    }
    Filter(links, IsDeleted)
  }

  /** `linkCount`: the number of entries not in the trash. */
  function LinkCount(links: seq<LinkRecord>): (n: nat)
    ensures n <= |links|
    ensures n == |links| - |DeletedLinks(links)|
  {
    FilterComplement(links, IsNotDeleted, IsDeleted);
    |Filter(links, IsNotDeleted)|
  }

  /** Every mirrored record is listed in exactly one of the three listings. */
  lemma ListingsPartition(links: seq<LinkRecord>, x: LinkRecord)
    requires x in links
    ensures x in ActiveLinks(links) || x in InactiveLinks(links) || x in DeletedLinks(links)
    ensures !(x in ActiveLinks(links) && x in InactiveLinks(links))
    ensures !(x in ActiveLinks(links) && x in DeletedLinks(links))
    ensures !(x in InactiveLinks(links) && x in DeletedLinks(links))
  {
  }

  /** The counts agree with the partition: `linkCount` is the size of the two
      live listings together, and the three listings together cover the mirror. */
  lemma ListingCounts(links: seq<LinkRecord>)
    ensures LinkCount(links) == |ActiveLinks(links)| + |InactiveLinks(links)|
    ensures |ActiveLinks(links)| + |InactiveLinks(links)| + |DeletedLinks(links)| == |links|
  {
    FilterSplit(links, IsNotDeleted, IsActiveListed, IsInactiveListed);
    FilterComplement(links, IsNotDeleted, IsDeleted);
  }

  // ---------------------------------------------------------------------------
  // Actions

  /** The row `createLink` asks the store to insert and gets back. */
  function NewRow(id: Id, owner: Id, token: string, title: string, html: string, expiresAt: Option<Timestamp>): (r: LinkRecord)
    ensures r.id == id && r.user_id == owner && r.token == token
    ensures r.title == title && r.html_content == html && r.expires_at == expiresAt
    ensures r.access_count == 0 && r.accessed_at.None?
    ensures IsActiveListed(r)
  {
    LinkRecord(id, owner, token, title, html, expiresAt, true, 0, None, None)
  }

  /** `createLink`: without a user it fails before touching anything; otherwise
      the row (store-assigned id `newId`, a token drawn from `random`) is
      inserted and, once stored, put at the front of the mirror. */
  function CreateLink(s: Store, user: Option<Id>, newId: Id, random: TokenGenerator.TokenBytes,
                      title: string, html: string, expiresAt: Option<Timestamp>): (r: Reply<LinkRecord>)
    ensures user.None? ==> r == Reply(s, Err(NotAuthenticated))
    ensures r.result.Err? ==> r.store == s
    ensures r.result.Ok? <==> user.Some? && !HasId(s.table, newId)
    ensures r.result.Ok? ==>
      var row := r.result.value;
      && row.id == newId && row.user_id == user.value
      && row.token == TokenGenerator.Token(random) && |row.token| == 32
      && row.title == title && row.html_content == html && row.expires_at == expiresAt
      && row.is_active && row.access_count == 0
      && row.accessed_at.None? && row.deleted_at.None?
      && r.store.table == s.table + [row]
      && r.store.links == [row] + s.links
      && r.store.current == s.current
  {
    if user.None? then Reply(s, Err(NotAuthenticated))
    else
      var row := NewRow(newId, user.value, TokenGenerator.Token(random), title, html, expiresAt);
      match InsertRow(s.table, row)
      case Err(e) => Reply(s, Err(QueryFailed(e)))
      case Ok(t') => Reply(s.(table := t', links := Prepend(s.links, row)), Ok(row))
  }

  /** The filters of `deactivateLink`: this id, and still active. */
  function ConsumeFilter(id: Id): (f: seq<Eq>)
    ensures forall r :: Matches(r, f) <==> r.id == id && r.is_active
  {
    var f := [IdIs(id), ActiveIs(true)];
    assert forall r :: Matches(r, f) <==> Holds(r, f[0]) && Holds(r, f[1]);
    f
  }

  /** The filters of the owner-scoped actions: this id, owned by this user. */
  function OwnerFilter(id: Id, user: Id): (f: seq<Eq>)
    ensures forall r :: Matches(r, f) <==> r.id == id && r.user_id == user
  {
    var f := [IdIs(id), UserIs(user)];
    assert forall r :: Matches(r, f) <==> Holds(r, f[0]) && Holds(r, f[1]);
    f
  }

  /** The filters of `fetchLinkByToken`: this token, and still active. */
  function TokenFilter(token: string): (f: seq<Eq>)
    ensures forall r :: Matches(r, f) <==> r.token == token && r.is_active
  {
    var f := [TokenIs(token), ActiveIs(true)];
    assert forall r :: Matches(r, f) <==> Holds(r, f[0]) && Holds(r, f[1]);
    f
  }

  /** The filter of the mirror's `findIndex`: this id. */
  function IdFilter(id: Id): (f: seq<Eq>)
    ensures forall r :: Matches(r, f) <==> r.id == id
  {
    var f := [IdIs(id)];
    assert forall r :: Matches(r, f) <==> Holds(r, f[0]);
    f
  }

  /** Mirror and current-link bookkeeping after a successful single-row update. */
  function AfterUpdate(s: Store, t': Table, id: Id, row: LinkRecord, touchCurrent: bool): (r: Store)
    ensures r.table == t'
    ensures |r.links| == |s.links|
    ensures IndexById(s.links, id) >= 0 ==> r.links[IndexById(s.links, id)] == row
    ensures forall j :: 0 <= j < |s.links| && j != IndexById(s.links, id) ==> r.links[j] == s.links[j]
    ensures touchCurrent && s.current.Some? && s.current.value.id == id ==> r.current == Some(row)
    ensures !(touchCurrent && s.current.Some? && s.current.value.id == id) ==> r.current == s.current
  {
    var current := if touchCurrent && s.current.Some? && s.current.value.id == id then Some(row) else s.current;
    Store(t', ReplaceById(s.links, id, row), current)
  }

  /** `deactivateLink(id)`: consumes the one row with this id that is still
      active. No check of expiry or of the trash is made. */
  function DeactivateLink(s: Store, id: Id, now: Timestamp): (r: Reply<LinkRecord>)
    ensures r.result.Ok? <==> MatchCount(s.table, ConsumeFilter(id)) == 1
    ensures r.result.Err? ==> r.store == s
    ensures r.result.Ok? ==>
      var row := r.result.value;
      var k := FirstMatch(s.table, ConsumeFilter(id));
      var old_row := s.table[k];
      && old_row.id == id && old_row.is_active
      && row == old_row.(is_active := false, accessed_at := Some(now), access_count := old_row.access_count + 1)
      && |r.store.table| == |s.table| && r.store.table[k] == row
      && (forall j :: 0 <= j < |s.table| && j != k ==> r.store.table[j] == s.table[j])
      && r.store.links == ReplaceById(s.links, id, row)
      && r.store.current == (if s.current.Some? && s.current.value.id == id then Some(row) else s.current)
  {
    match UpdateSingle(s.table, ConsumeFilter(id), Consume(now))
    case Err(e) => Reply(s, Err(QueryFailed(e)))
    case Ok((t', row)) => Reply(AfterUpdate(s, t', id, row, true), Ok(row))
  }

  /** `deactivateLink(id)` as written: the payload's ``supabase.sql`access_count + 1` ``
      calls a member the supabase-js client does not have, so a TypeError is
      raised inside the `try`, caught, and returned as `{ data: null, error }`.
      No query is sent and no local state changes. */
  function DeactivateLinkAsWritten(s: Store, id: Id, now: Timestamp): (r: Reply<LinkRecord>)
    ensures r.result.Err? && r.store == s
  {
    Reply(s, Err(ClientError))
  }

  /** A store holding one active link: consuming it succeeds under the intended
      update, but the code as written rejects it, so no link is ever consumed
      through `deactivateLink`. */
  lemma AsWrittenNeverConsumes()
    ensures var row := NewRow("l1", "u1", "t", "title", "<p>hi</p>", None);
      var s := Store([row], [row], None);
      && DeactivateLink(s, "l1", 0).result.Ok?
      && DeactivateLink(s, "l1", 0).store.table[0].access_count == 1
      && DeactivateLinkAsWritten(s, "l1", 0).result.Err?
      && DeactivateLinkAsWritten(s, "l1", 0).store.table[0].is_active
  {
    var row := NewRow("l1", "u1", "t", "title", "<p>hi</p>", None);
    var s := Store([row], [row], None);
    assert Matches(row, ConsumeFilter("l1"));
    assert MatchCount(s.table[1..], ConsumeFilter("l1")) == 0;
  }

  /** `updateLink(id, {title, htmlContent, expiresAt})`: the owner's row gets
      the three editable columns; the activity flag is not consulted. */
  function UpdateLink(s: Store, user: Option<Id>, id: Id, title: string, html: string, expiresAt: Option<Timestamp>): (r: Reply<LinkRecord>)
    ensures user.None? ==> r == Reply(s, Err(NotAuthenticated))
    ensures r.result.Err? ==> r.store == s
    ensures r.result.Ok? <==> user.Some? && MatchCount(s.table, OwnerFilter(id, user.value)) == 1
    ensures r.result.Ok? ==>
      var row := r.result.value;
      var k := FirstMatch(s.table, OwnerFilter(id, user.value));
      var old_row := s.table[k];
      && old_row.id == id && old_row.user_id == user.value
      && row.title == title && row.html_content == html && row.expires_at == expiresAt
      && row == old_row.(title := title, html_content := html, expires_at := expiresAt)
      && row.is_active == old_row.is_active && row.access_count == old_row.access_count && row.token == old_row.token
      && |r.store.table| == |s.table| && r.store.table[k] == row
      && (forall j :: 0 <= j < |s.table| && j != k ==> r.store.table[j] == s.table[j])
      && r.store.links == ReplaceById(s.links, id, row)
      && r.store.current == s.current
  {
    if user.None? then Reply(s, Err(NotAuthenticated))
    else
      match UpdateSingle(s.table, OwnerFilter(id, user.value), Edit(title, html, expiresAt))
      case Err(e) => Reply(s, Err(QueryFailed(e)))
      case Ok((t', row)) => Reply(AfterUpdate(s, t', id, row, false), Ok(row))
  }

  /** The shared shape of `moveToTrash` and `restoreFromTrash`: set `deleted_at`
      on the owner's row. */
  function SetDeleted(s: Store, user: Option<Id>, id: Id, deletedAt: Option<Timestamp>): (r: Reply<LinkRecord>)
    ensures user.None? ==> r == Reply(s, Err(NotAuthenticated))
    ensures r.result.Err? ==> r.store == s
    ensures r.result.Ok? <==> user.Some? && MatchCount(s.table, OwnerFilter(id, user.value)) == 1
    ensures r.result.Ok? ==>
      var row := r.result.value;
      var k := FirstMatch(s.table, OwnerFilter(id, user.value));
      && s.table[k].id == id && s.table[k].user_id == user.value
      && row == s.table[k].(deleted_at := deletedAt)
      && |r.store.table| == |s.table| && r.store.table[k] == row
      && (forall j :: 0 <= j < |s.table| && j != k ==> r.store.table[j] == s.table[j])
      && r.store.links == ReplaceById(s.links, id, row)
      && r.store.current == s.current
  {
    if user.None? then Reply(s, Err(NotAuthenticated))
    else
      match UpdateSingle(s.table, OwnerFilter(id, user.value), SetDeletedAt(deletedAt))
      case Err(e) => Reply(s, Err(QueryFailed(e)))
      case Ok((t', row)) => Reply(AfterUpdate(s, t', id, row, false), Ok(row))
  }

  /** `moveToTrash(id)`: stamps `deleted_at` with the current time. */
  function MoveToTrash(s: Store, user: Option<Id>, id: Id, now: Timestamp): (r: Reply<LinkRecord>)
    ensures r.result.Ok? ==> r.result.value.deleted_at == Some(now) && IsDeleted(r.result.value)
    ensures r.result.Ok? <==> user.Some? && MatchCount(s.table, OwnerFilter(id, user.value)) == 1
    ensures r.result.Err? ==> r.store == s
  {
    SetDeleted(s, user, id, Some(now))
  }

  /** `restoreFromTrash(id)`: clears `deleted_at`. */
  function RestoreFromTrash(s: Store, user: Option<Id>, id: Id): (r: Reply<LinkRecord>)
    ensures r.result.Ok? ==> r.result.value.deleted_at.None?
    ensures r.result.Ok? <==> user.Some? && MatchCount(s.table, OwnerFilter(id, user.value)) == 1
    ensures r.result.Err? ==> r.store == s
  {
    SetDeleted(s, user, id, None)
  }

  /** `deleteLink(id)`: removes the owner's rows with this id from the table
      (deleting nothing is no error) and splices the entry out of the mirror. */
  function DeleteLink(s: Store, user: Option<Id>, id: Id): (r: Reply<()>)
    ensures user.None? ==> r == Reply(s, Err(NotAuthenticated))
    ensures user.Some? ==>
      && r.result.Ok?
      && (forall x :: x in r.store.table <==> x in s.table && !(x.id == id && x.user_id == user.value))
      && r.store.links == RemoveById(s.links, id)
      && r.store.current == s.current
  {
    if user.None? then Reply(s, Err(NotAuthenticated))
    else
      var t' := DeleteWhere(s.table, OwnerFilter(id, user.value));
      Reply(s.(table := t', links := RemoveById(s.links, id)), Ok(()))
  }

  /** The reply of the server-side `fetch_and_deactivate_link` call, whose
      body is not part of this model. */
  datatype RpcReply = RpcError | RpcData(rows: Option<seq<LinkRecord>>)

  /** `fetchAndDeactivateLink(token)`: the first row the call returned becomes
      the current link; an error, a null or an empty reply clears it and fails. */
  function FetchAndDeactivateLink(s: Store, reply: RpcReply): (r: Reply<LinkRecord>)
    ensures r.store.table == s.table && r.store.links == s.links
    ensures r.result.Ok? <==> reply.RpcData? && reply.rows.Some? && |reply.rows.value| > 0
    ensures r.result.Ok? ==> r.result.value == reply.rows.value[0] && r.store.current == Some(reply.rows.value[0])
    ensures r.result.Err? ==> r.store.current.None?
    ensures reply.RpcData? && r.result.Err? ==> r.result.error == LinkUnavailable
  {
    match reply
    case RpcError => Reply(s.(current := None), Err(RpcFailed))
    case RpcData(rows) =>
      if rows.None? || |rows.value| == 0 then Reply(s.(current := None), Err(LinkUnavailable))
      else Reply(s.(current := Some(rows.value[0])), Ok(rows.value[0]))
  }

  /** `fetchLinkByToken(token)`: reads the one active row with this token
      without changing it. */
  function FetchLinkByToken(s: Store, token: string): (r: Reply<LinkRecord>)
    ensures r.store.table == s.table && r.store.links == s.links
    ensures r.result.Ok? <==> MatchCount(s.table, TokenFilter(token)) == 1
    ensures r.result.Ok? ==>
      && r.result.value in s.table && r.result.value.token == token && r.result.value.is_active
      && r.store.current == Some(r.result.value)
    ensures r.result.Err? ==> r.store.current.None?
  {
    match SelectSingle(s.table, TokenFilter(token))
    case Err(e) => Reply(s.(current := None), Err(QueryFailed(e)))
    case Ok(row) => Reply(s.(current := Some(row)), Ok(row))
  }

  // ---------------------------------------------------------------------------
  // Link URL

  /** `VITE_APP_URL || window.location.origin`: an unset or empty setting falls back. */
  function AppUrl(configured: Option<string>, origin: string): (u: string)
    ensures configured.Some? && configured.value != "" ==> u == configured.value
    ensures configured.None? || configured.value == "" ==> u == origin
  {
    if configured.Some? && configured.value != "" then configured.value else origin
  }

  const LinkPath: string := "/link/"

  /** `getLinkUrl(token)`. */
  function LinkUrl(appUrl: string, token: string): (url: string)
    ensures |url| == |appUrl| + |LinkPath| + |token|
    ensures url[..|appUrl|] == appUrl && url[|appUrl|..|appUrl| + |LinkPath|] == LinkPath
    ensures url[|appUrl| + |LinkPath|..] == token
  {
    appUrl + LinkPath + token
  }

  /** The inverse of `LinkUrl`: the text after `appUrl` and `/link/`, when the URL starts with both. */
  function TokenOfUrl(appUrl: string, url: string): (t: Option<string>)
    ensures t.Some? ==> |url| >= |appUrl| + |LinkPath| && t.value == url[|appUrl| + |LinkPath|..]
  {
    var n := |appUrl| + |LinkPath|;
    if |url| >= n && url[..n] == appUrl + LinkPath then Some(url[n..]) else None
  }

  /** Every token is recovered from its URL, and a URL that yields a token is that token's URL. */
  lemma LinkUrlRoundTrip(appUrl: string, token: string, url: string)
    ensures TokenOfUrl(appUrl, LinkUrl(appUrl, token)) == Some(token)
    ensures TokenOfUrl(appUrl, url) == Some(token) ==> LinkUrl(appUrl, token) == url
  {
    var u := LinkUrl(appUrl, token);
    assert u[..|appUrl| + |LinkPath|] == appUrl + LinkPath;
    if TokenOfUrl(appUrl, url) == Some(token) {
      var n := |appUrl| + |LinkPath|;
      assert url == url[..n] + url[n..];
    }
  }
}

=== FILE: router.dfy ===
/** The navigation guard of src/router/index.js: the route table's meta flags
    and the `beforeEach` decision. Path matching and lazy component loading are
    not modelled; a navigation is given by the routes it matched. */
module Router {
  import opened Wrappers

  datatype Meta = Meta(requiresAuth: bool, requiresGuest: bool, isPublic: bool)

  datatype Route = Route(path: string, name: string, meta: Meta)

  const NoFlags: Meta := Meta(false, false, false)
  const GuestOnly: Meta := NoFlags.(requiresGuest := true)
  const AuthOnly: Meta := NoFlags.(requiresAuth := true)

  /** The `routes` table, in order. The catch-all `not-found` route only
      redirects to `/` and carries no meta. */
  const Routes: seq<Route> := [
    Route("/", "home", GuestOnly),
    Route("/dashboard", "dashboard", AuthOnly),
    Route("/new", "new-link", AuthOnly),
    Route("/edit/:id", "edit-link", AuthOnly),
    Route("/trash", "trash", AuthOnly),
    Route("/settings", "settings", AuthOnly),
    Route("/link/:token", "once-link", NoFlags.(isPublic := true)),
    Route("/:pathMatch(.*)*", "not-found", NoFlags)
  ]

  /** The route registered under `name`, if any. */
  function RouteNamed(name: string): (r: Option<Route>)
    ensures r.Some? ==> r.value in Routes && r.value.name == name
    ensures r.None? ==> forall i :: 0 <= i < |Routes| ==> Routes[i].name != name
  {
    FindByName(Routes, name)
  }

  function FindByName(rs: seq<Route>, name: string): (r: Option<Route>)
    ensures r.Some? ==> r.value in rs && r.value.name == name
    ensures r.None? ==> forall i :: 0 <= i < |rs| ==> rs[i].name != name
  {
    if |rs| == 0 then None
    else if rs[0].name == name then Some(rs[0])
    else FindByName(rs[1..], name)
  }

  /** `to.matched.some(record => record.meta.requiresAuth)`. */
  predicate RequiresAuth(matched: seq<Route>) {
    exists i :: 0 <= i < |matched| && matched[i].meta.requiresAuth
  }

  /** `to.matched.some(record => record.meta.requiresGuest)`. */
  predicate RequiresGuest(matched: seq<Route>) {
    exists i :: 0 <= i < |matched| && matched[i].meta.requiresGuest
  }

  datatype Decision = Proceed | RedirectTo(name: string)

  /** The `beforeEach` decision once the auth store has been initialised. */
  function Guard(matched: seq<Route>, isAuthenticated: bool): (d: Decision)
    ensures d == RedirectTo("home") <==> RequiresAuth(matched) && !isAuthenticated
    ensures d == RedirectTo("dashboard") <==> RequiresGuest(matched) && isAuthenticated
    ensures d == Proceed <==> !(RequiresAuth(matched) && !isAuthenticated) && !(RequiresGuest(matched) && isAuthenticated)
  {
    if RequiresAuth(matched) && !isAuthenticated then RedirectTo("home")
    else if RequiresGuest(matched) && isAuthenticated then RedirectTo("dashboard")
    else Proceed
  }

  /** No route asks for both a signed-in user and a guest. */
  lemma FlagsExclusive()
    ensures forall i :: 0 <= i < |Routes| ==> !(Routes[i].meta.requiresAuth && Routes[i].meta.requiresGuest)
  {
  }

  /** The one-time link page carries neither flag, so it opens whatever the auth state. */
  lemma LinkPageAlwaysOpens(isAuthenticated: bool)
    ensures RouteNamed("once-link").Some?
    ensures Guard([RouteNamed("once-link").value], isAuthenticated) == Proceed
  {
    assert Routes[6].name == "once-link";
  }

  /** No redirect loop: every redirect names a registered route that the guard
      lets through under the same auth state. */
  lemma NoRedirectLoop(matched: seq<Route>, isAuthenticated: bool)
    ensures Guard(matched, isAuthenticated).RedirectTo? ==>
      var target := RouteNamed(Guard(matched, isAuthenticated).name);
      target.Some? && Guard([target.value], isAuthenticated) == Proceed
  {
    assert Routes[0].name == "home";
    assert Routes[1].name == "dashboard";
    var home := RouteNamed("home");
    var dashboard := RouteNamed("dashboard");
    assert home == Some(Routes[0]);
    assert dashboard == Some(Routes[1]);
    assert [Routes[0]][0] == Routes[0];
    assert [Routes[1]][0] == Routes[1];
  }
}

=== FILE: seqs.dfy ===
/** Sequence helpers shared by the store and the toast queue: the
    `Array.prototype.filter` analogue and the facts about it the model needs. */
module Seqs {

  /** The elements of `s` satisfying `p`, in their original order. */
  function Filter<T>(s: seq<T>, p: T -> bool): (r: seq<T>)
    ensures |r| <= |s|
    ensures forall x :: x in r ==> x in s && p(x)
  {
    if |s| == 0 then []
    else if p(s[0]) then [s[0]] + Filter(s[1..], p)
    else Filter(s[1..], p)
  }

  /** Filtering keeps exactly the elements of `s` that satisfy `p`. */
  lemma {:induction false} FilterMembership<T>(s: seq<T>, p: T -> bool, x: T)
    ensures x in Filter(s, p) <==> x in s && p(x)
  {
    if |s| > 0 {
      FilterMembership(s[1..], p, x);
      assert s == [s[0]] + s[1..];
    }
  }

  /** Two complementary filters split `s` into two parts whose sizes add up to `|s|`. */
  lemma {:induction false} FilterComplement<T>(s: seq<T>, p: T -> bool, q: T -> bool)
    requires forall x :: x in s ==> (q(x) <==> !p(x))
    ensures |Filter(s, p)| + |Filter(s, q)| == |s|
  {
    if |s| > 0 {
      assert forall x :: x in s[1..] ==> x in s;
      FilterComplement(s[1..], p, q);
    }
  }

  /** Refining a filter by a stricter predicate: the elements of `s` satisfying
      `p` split into those satisfying `p1` and those satisfying `p2`. */
  lemma {:induction false} FilterSplit<T>(s: seq<T>, p: T -> bool, p1: T -> bool, p2: T -> bool)
    requires forall x :: x in s ==> (p(x) <==> p1(x) || p2(x))
    requires forall x :: x in s ==> !(p1(x) && p2(x))
    ensures |Filter(s, p1)| + |Filter(s, p2)| == |Filter(s, p)|
  {
    if |s| > 0 {
      assert forall x :: x in s[1..] ==> x in s;
      FilterSplit(s[1..], p, p1, p2);
    }
  }
}

=== FILE: theme.dfy ===
/** The theme store (src/stores/theme.js): a dark-mode flag and the stored
    preference it is saved under. The stored value stands for the
    `localStorage` entry; DOM updates and media-query listeners are left to
    the caller, which passes the system preference in. */
module Theme {
  import opened Wrappers

  datatype ThemeState = ThemeState(isDark: bool, stored: Option<string>)

  /** The `theme` getter. */
  function ThemeName(isDark: bool): (t: string)
    ensures t == "dark" <==> isDark
    ensures t == "light" <==> !isDark
  {
    if isDark then "dark" else "light"
  }

  /** JavaScript truthiness of `localStorage.getItem(key)`: present and non-empty. */
  predicate HasPreference(stored: Option<string>) {
    stored.Some? && stored.value != ""
  }

  /** The flag agrees with the stored preference whenever one is present. */
  predicate Consistent(s: ThemeState) {
    HasPreference(s.stored) ==> (s.isDark <==> s.stored.value == "dark")
  }

  /** `initialize()`: a stored preference wins; otherwise the system's. */
  function Initialize(stored: Option<string>, systemPrefersDark: bool): (s: ThemeState)
    ensures s.stored == stored
    ensures HasPreference(stored) ==> (s.isDark <==> stored.value == "dark")
    ensures !HasPreference(stored) ==> s.isDark == systemPrefersDark
  {
    if HasPreference(stored) then ThemeState(stored.value == "dark", stored)
    else ThemeState(systemPrefersDark, stored)
  }

  /** `toggle()`: flips the flag and saves the new theme's name. */
  function Toggle(s: ThemeState): (r: ThemeState)
    ensures r.isDark == !s.isDark
    ensures r.stored == Some(ThemeName(r.isDark))
    ensures Consistent(r)
  {
    var isDark := !s.isDark;
    ThemeState(isDark, Some(ThemeName(isDark)))
  }

  /** `setTheme(t)`: dark exactly for "dark"; `t` is saved as given. */
  function SetTheme(s: ThemeState, t: string): (r: ThemeState)
    ensures r.isDark <==> t == "dark"
    ensures r.stored == Some(t)
    ensures Consistent(r)
  {
    ThemeState(t == "dark", Some(t))
  }

  /** The `prefers-color-scheme` change listener: followed only while nothing is stored. */
  function SystemPreferenceChanged(s: ThemeState, prefersDark: bool): (r: ThemeState)
    ensures r.stored == s.stored
    ensures HasPreference(s.stored) ==> r == s
    ensures !HasPreference(s.stored) ==> r.isDark == prefersDark
  {
    if !HasPreference(s.stored) then s.(isDark := prefersDark) else s
  }

  /** Toggling twice restores the flag and leaves the matching name stored. */
  lemma ToggleTwice(s: ThemeState)
    ensures Toggle(Toggle(s)).isDark == s.isDark
    ensures Toggle(Toggle(s)).stored == Some(ThemeName(s.isDark))
  {
  }

  /** Every transition leaves the flag in agreement with the stored preference. */
  lemma TransitionsKeepConsistent(s: ThemeState, stored: Option<string>, systemPrefersDark: bool, t: string)
    ensures Consistent(Initialize(stored, systemPrefersDark))
    ensures Consistent(s) ==> Consistent(SystemPreferenceChanged(s, systemPrefersDark))
    ensures Consistent(Toggle(s)) && Consistent(SetTheme(s, t))
  {
  }
}

=== FILE: toast.dfy ===
/** The global toast queue (src/composables/useToast.js): a list of toasts and
    the module-level `toastId` counter. Auto-dismissal by timer is a later
    `remove(id)` and is not modelled separately. */
module ToastQueue {
  import opened Wrappers

  datatype Toast = Toast(id: nat, message: string, kind: string)

  /** `toasts` and `toastId`, the last id handed out. */
  datatype Queue = Queue(toasts: seq<Toast>, lastId: nat)

  /** The module's initial state: no toasts, counter at zero. */
  const Empty: Queue := Queue([], 0)

  const DefaultKind: string := "info"

  /** Ids in the list strictly increase from front to back and none exceeds the counter. */
  ghost predicate Valid(q: Queue) {
    && (forall i, j :: 0 <= i < j < |q.toasts| ==> q.toasts[i].id < q.toasts[j].id)
    && (forall i :: 0 <= i < |q.toasts| ==> q.toasts[i].id <= q.lastId)
  }

  /** `show(message, type = 'info')`: the counter is pre-incremented, its new
      value is the toast's id and the return value, and the toast goes last. */
  function Show(q: Queue, message: string, kind: Option<string>): (r: (Queue, nat))
    ensures r.1 == q.lastId + 1 && r.0.lastId == r.1
    ensures |r.0.toasts| == |q.toasts| + 1 && r.0.toasts[..|q.toasts|] == q.toasts
    ensures r.0.toasts[|q.toasts|] == Toast(r.1, message, kind.GetOr(DefaultKind))
  {
    var id := q.lastId + 1;
    (Queue(q.toasts + [Toast(id, message, kind.GetOr(DefaultKind))], id), id)
  }

  /** `success(message)`. */
  function Success(q: Queue, message: string): (r: (Queue, nat))
    ensures r.1 == q.lastId + 1 && r.0.lastId == r.1
    ensures r.0.toasts == q.toasts + [Toast(r.1, message, "success")]
  {
    Show(q, message, Some("success"))
  }

  /** `error(message)`. */
  function Error(q: Queue, message: string): (r: (Queue, nat))
    ensures r.1 == q.lastId + 1 && r.0.lastId == r.1
    ensures r.0.toasts == q.toasts + [Toast(r.1, message, "error")]
  {
    Show(q, message, Some("error"))
  }

  /** `warning(message)`. */
  function Warning(q: Queue, message: string): (r: (Queue, nat))
    ensures r.1 == q.lastId + 1 && r.0.lastId == r.1
    ensures r.0.toasts == q.toasts + [Toast(r.1, message, "warning")]
  {
    Show(q, message, Some("warning"))
  }

  /** `info(message)`. */
  function Info(q: Queue, message: string): (r: (Queue, nat))
    ensures r.1 == q.lastId + 1 && r.0.lastId == r.1
    ensures r.0.toasts == q.toasts + [Toast(r.1, message, "info")]
  {
    Show(q, message, Some("info"))
  }

  /** `toasts.findIndex(t => t.id === id)`. */
  function IndexOfId(ts: seq<Toast>, id: nat): (k: int)
    ensures -1 <= k < |ts|
    ensures k >= 0 ==> ts[k].id == id
    ensures forall j :: 0 <= j < |ts| && (k == -1 || j < k) ==> ts[j].id != id
  {
    if |ts| == 0 then -1
    else if ts[0].id == id then 0
    else
      var k := IndexOfId(ts[1..], id);
      if k == -1 then -1 else k + 1
  }

  /** `remove(id)`: splices out the first toast with that id, if any; the others keep their order. */
  function Remove(q: Queue, id: nat): (r: Queue)
    ensures r.lastId == q.lastId
    ensures (forall i :: 0 <= i < |q.toasts| ==> q.toasts[i].id != id) ==> r == q
    ensures |r.toasts| <= |q.toasts| <= |r.toasts| + 1
    ensures IndexOfId(q.toasts, id) >= 0 ==>
      && |r.toasts| == |q.toasts| - 1
      && (forall j :: 0 <= j < IndexOfId(q.toasts, id) ==> r.toasts[j] == q.toasts[j])
      && (forall j :: IndexOfId(q.toasts, id) <= j < |r.toasts| ==> r.toasts[j] == q.toasts[j + 1])
  {
    q.(toasts := SpliceOut(q.toasts, id))
  }

  /** The list with its first toast carrying `id` spliced out. */
  function SpliceOut(ts: seq<Toast>, id: nat): (r: seq<Toast>)
    ensures IndexOfId(ts, id) == -1 ==> r == ts
    ensures IndexOfId(ts, id) >= 0 ==>
      && |r| == |ts| - 1
      && (forall j :: 0 <= j < IndexOfId(ts, id) ==> r[j] == ts[j])
      && (forall j :: IndexOfId(ts, id) <= j < |r| ==> r[j] == ts[j + 1])
  {
    var k := IndexOfId(ts, id);
    if k > -1 then ts[..k] + ts[k+1..] else ts
  }

  /** `clear()`: empties the list; `toastId` is not reset. */
  function Clear(q: Queue): (r: Queue)
    ensures r.toasts == [] && r.lastId == q.lastId
  {
    q.(toasts := [])
  }

  /** The toasts without any carrying `id`, in their original order. */
  function WithoutId(ts: seq<Toast>, id: nat): (r: seq<Toast>)
    ensures |r| <= |ts|
    ensures forall t :: t in r <==> t in ts && t.id != id
  {
    if |ts| == 0 then []
    else if ts[0].id == id then WithoutId(ts[1..], id)
    else [ts[0]] + WithoutId(ts[1..], id)
  }

  /** Splicing out a toast behind the head keeps the head. */
  lemma SpliceOutTail(ts: seq<Toast>, id: nat)
    requires |ts| > 0 && ts[0].id != id
    ensures SpliceOut(ts, id) == [ts[0]] + SpliceOut(ts[1..], id)
  {
    var tail := ts[1..];
    var k := IndexOfId(ts, id);
    if k > -1 {
      assert IndexOfId(tail, id) == k - 1;
      assert ts[..k] == [ts[0]] + tail[..k-1];
      assert ts[k+1..] == tail[k..];
    }
  }

  /** With distinct ids, splicing out the first toast with an id is the same as
      dropping every toast with that id: the rest keep their relative order. */
  lemma {:induction false} RemoveIsWithout(ts: seq<Toast>, id: nat)
    requires forall i, j :: 0 <= i < j < |ts| ==> ts[i].id != ts[j].id
    ensures SpliceOut(ts, id) == WithoutId(ts, id)
  {
    if |ts| > 0 {
      var tail := ts[1..];
      assert forall i :: 0 <= i < |tail| ==> tail[i] == ts[i + 1];
      if ts[0].id == id {
        NoIdKeepsAll(tail, id);
      } else {
        RemoveIsWithout(tail, id);
        SpliceOutTail(ts, id);
      }
    }
  }

  /** `remove(id)` on a valid queue drops exactly the toast with that id. */
  lemma RemoveDropsId(q: Queue, id: nat)
    requires Valid(q)
    ensures Remove(q, id).toasts == WithoutId(q.toasts, id)
  {
    RemoveIsWithout(q.toasts, id);
  }

  lemma {:induction false} NoIdKeepsAll(ts: seq<Toast>, id: nat)
    requires forall j :: 0 <= j < |ts| ==> ts[j].id != id
    ensures WithoutId(ts, id) == ts
  {
    if |ts| > 0 {
      NoIdKeepsAll(ts[1..], id);
    }
  }

  /** `show` keeps the invariant, and the id it returns is not in the list. */
  lemma ShowKeepsValid(q: Queue, message: string, kind: Option<string>)
    requires Valid(q)
    ensures Valid(Show(q, message, kind).0)
    ensures forall i :: 0 <= i < |q.toasts| ==> q.toasts[i].id != Show(q, message, kind).1
  {
  }

  lemma RemoveKeepsValid(q: Queue, id: nat)
    requires Valid(q)
    ensures Valid(Remove(q, id))
  {
    var k := IndexOfId(q.toasts, id);
    if k > -1 {
      var r := Remove(q, id).toasts;
      assert forall i :: 0 <= i < |r| ==> r[i] == (if i < k then q.toasts[i] else q.toasts[i + 1]);
    }
  }

  lemma ClearKeepsValid(q: Queue)
    requires Valid(q)
    ensures Valid(Clear(q))
  {
  }

  /** The operations a component can perform on the queue. */
  datatype Op = ShowOp(message: string, kind: Option<string>) | RemoveOp(id: nat) | ClearOp

  /** Applies `ops` in order; returns the final queue and the ids `show` returned. */
  function Run(q: Queue, ops: seq<Op>): (r: (Queue, seq<nat>))
    ensures r.0.lastId >= q.lastId
    ensures forall i :: 0 <= i < |r.1| ==> q.lastId < r.1[i] <= r.0.lastId
    ensures forall i, j :: 0 <= i < j < |r.1| ==> r.1[i] < r.1[j]
    decreases |ops|
  {
    if |ops| == 0 then (q, [])
    else
      match ops[0]
      case ShowOp(m, k) =>
        var (q', id) := Show(q, m, k);
        var (q'', ids) := Run(q', ops[1..]);
        (q'', [id] + ids)
      case RemoveOp(id) => Run(Remove(q, id), ops[1..])
      case ClearOp => Run(Clear(q), ops[1..])
  }

  /** Any run from a valid queue ends in a valid queue. */
  lemma {:induction false} RunKeepsValid(q: Queue, ops: seq<Op>)
    requires Valid(q)
    ensures Valid(Run(q, ops).0)
    decreases |ops|
  {
    if |ops| > 0 {
      match ops[0]
      case ShowOp(m, k) =>
        ShowKeepsValid(q, m, k);
        RunKeepsValid(Show(q, m, k).0, ops[1..]);
      case RemoveOp(id) =>
        RemoveKeepsValid(q, id);
        RunKeepsValid(Remove(q, id), ops[1..]);
      case ClearOp =>
        RunKeepsValid(Clear(q), ops[1..]);
    }
  }
}

=== FILE: token_generator.dfy ===
/** Token issuance (src/utils/tokenGenerator.js). The cryptographic random
    source is not modelled: the random bytes, or the random UUID string, are
    inputs, so every function here is deterministic. */
module TokenGenerator {

  /** One value of a `Uint8Array`. */
  newtype byte = x: int | 0 <= x < 256

  /** A run of `n` consecutive code points starting at `first`. */
  function CharRange(first: char, n: nat): (r: string)
    requires (first as int) + n <= 128
    ensures |r| == n
  {
    seq(n, i requires 0 <= i < n => ((first as int) + i) as char)
  }

  /** The 62-symbol alphabet of `generateSecureToken`, in the source's order:
      "ABCDEFGHIJKLMNOPQRSTUVWXYZabcdefghijklmnopqrstuvwxyz0123456789". */
  const Chars: string := CharRange('A', 26) + CharRange('a', 26) + CharRange('0', 10)

  /** The number of random bytes `generateToken` asks for. */
  const DefaultLength: nat := 32

  /** ASCII letters and digits, defined by code-point ranges, independently of `Chars`. */
  predicate IsAlnum(c: char) {
    ('A' <= c <= 'Z') || ('a' <= c <= 'z') || ('0' <= c <= '9')
  }

  /** The position of an alphanumeric character in `Chars`, computed from its code point. */
  function CharIndex(c: char): (i: nat)
    requires IsAlnum(c)
    ensures i < |Chars| && Chars[i] == c
  {
    if 'A' <= c <= 'Z' then (c as int) - ('A' as int)
    else if 'a' <= c <= 'z' then (c as int) - ('a' as int) + 26
    else (c as int) - ('0' as int) + 52
  }

  /** `Chars` is exactly the 62 alphanumerics, each at the position `CharIndex` gives it,
      so every `value % chars.length` indexes a distinct symbol. */
  lemma AlphabetShape()
    ensures |Chars| == 62
    ensures forall i :: 0 <= i < |Chars| ==> IsAlnum(Chars[i]) && CharIndex(Chars[i]) == i
  {
  }

  /** The alphabet has no repeated symbol. */
  lemma AlphabetDistinct(i: nat, j: nat)
    requires i < |Chars| && j < |Chars| && i != j
    ensures Chars[i] != Chars[j]
  {
    AlphabetShape();
  }

  /** `generateSecureToken`: each random byte `b` becomes `chars[b % 62]`, joined in order. */
  function SecureToken(bytes: seq<byte>): (token: string)
    ensures |token| == |bytes|
    ensures forall i :: 0 <= i < |token| ==> IsAlnum(token[i])
  {
    AlphabetShape();
    seq(|bytes|, i requires 0 <= i < |bytes| => Chars[(bytes[i] as int) % |Chars|])
  }

  /** The 32 random bytes `generateToken` draws. */
  type TokenBytes = b: seq<byte> | |b| == DefaultLength
    witness seq(DefaultLength, _ => 0 as byte)

  /** `generateToken`: a secure token over the default 32 random bytes. */
  function Token(bytes: TokenBytes): (token: string)
    ensures |token| == 32
    ensures forall i :: 0 <= i < |token| ==> IsAlnum(token[i])
  {
    SecureToken(bytes)
  }

  /** Reading a token back through `CharIndex` recovers each byte modulo 62: the
      token is determined by, and determines, the residues of its random bytes. */
  function TokenResidues(token: string): (rs: seq<nat>)
    requires forall i :: 0 <= i < |token| ==> IsAlnum(token[i])
    ensures |rs| == |token|
    ensures forall i :: 0 <= i < |rs| ==> rs[i] < 62
  {
    AlphabetShape();
    seq(|token|, i requires 0 <= i < |token| => CharIndex(token[i]))
  }

  lemma SecureTokenResidues(bytes: seq<byte>)
    ensures TokenResidues(SecureToken(bytes)) == seq(|bytes|, i requires 0 <= i < |bytes| => (bytes[i] as int) % 62)
  {
    AlphabetShape();
  }

  /** Two byte strings give the same token exactly when their bytes agree modulo 62. */
  lemma SecureTokenEqual(a: seq<byte>, b: seq<byte>)
    requires |a| == |b|
    ensures SecureToken(a) == SecureToken(b) <==>
            forall i :: 0 <= i < |a| ==> (a[i] as int) % 62 == (b[i] as int) % 62
  {
    SecureTokenResidues(a);
    SecureTokenResidues(b);
    if SecureToken(a) == SecureToken(b) {
      forall i | 0 <= i < |a|
        ensures (a[i] as int) % 62 == (b[i] as int) % 62
      {
        assert TokenResidues(SecureToken(a))[i] == TokenResidues(SecureToken(b))[i];
      }
    }
    if forall i :: 0 <= i < |a| ==> (a[i] as int) % 62 == (b[i] as int) % 62 {
      AlphabetShape();
      assert forall i :: 0 <= i < |a| ==> SecureToken(a)[i] == SecureToken(b)[i];
    }
  }

  /** `crypto.randomUUID().replace(/-/g, '')`: the UUID string with every `-` removed. */
  function StripDashes(u: string): (r: string)
    ensures '-' !in r
    ensures |r| <= |u|
  {
    if |u| == 0 then ""
    else if u[0] == '-' then StripDashes(u[1..])
    else [u[0]] + StripDashes(u[1..])
  }

  /** `generateUuidToken` over the UUID the random source produced. */
  function UuidToken(uuid: string): (token: string)
    ensures '-' !in token
  {
    StripDashes(uuid)
  }

  /** Removing dashes works piecewise on a concatenation. */
  lemma {:induction false} StripDashesAppend(a: string, b: string)
    ensures StripDashes(a + b) == StripDashes(a) + StripDashes(b)
  {
    if |a| == 0 {
      assert a + b == b;
    } else {
      assert (a + b)[1..] == a[1..] + b;
      StripDashesAppend(a[1..], b);
    }
  }

  /** A string without dashes is left as it is, so stripping is idempotent. */
  lemma {:induction false} StripDashesNoDash(u: string)
    requires '-' !in u
    ensures StripDashes(u) == u
  {
    if |u| > 0 {
      assert u == [u[0]] + u[1..];
      StripDashesNoDash(u[1..]);
    }
  }

  lemma StripDashesIdempotent(u: string)
    ensures StripDashes(StripDashes(u)) == StripDashes(u)
  {
    StripDashesNoDash(StripDashes(u));
  }

  /** Every non-dash character of `u` survives, in order: the result keeps the
      multiset of non-dash characters. */
  lemma {:induction false} StripDashesKeeps(u: string)
    ensures multiset(StripDashes(u)) == multiset(u)['-' := 0]
  {
    if |u| > 0 {
      StripDashesKeeps(u[1..]);
      assert u == [u[0]] + u[1..];
    }
  }

  predicate IsHexDigit(c: char) {
    ('0' <= c <= '9') || ('a' <= c <= 'f') || ('A' <= c <= 'F')
  }

  predicate AllHex(s: string) {
    forall i :: 0 <= i < |s| ==> IsHexDigit(s[i])
  }

  /** The canonical textual form of a UUID, 8-4-4-4-12 hex digits, as `randomUUID` returns. */
  predicate IsUuid(u: string) {
    && |u| == 36
    && u[8] == '-' && u[13] == '-' && u[18] == '-' && u[23] == '-'
    && AllHex(u[..8]) && AllHex(u[9..13]) && AllHex(u[14..18])
    && AllHex(u[19..23]) && AllHex(u[24..])
  }

  /** Stripping a string whose first dash sits at `k`. */
  lemma StripDashesAt(u: string, k: nat)
    requires k < |u| && u[k] == '-' && '-' !in u[..k]
    ensures StripDashes(u) == u[..k] + StripDashes(u[k+1..])
  {
    assert u == u[..k] + ("-" + u[k+1..]);
    StripDashesAppend(u[..k], "-" + u[k+1..]);
    StripDashesNoDash(u[..k]);
    assert ("-" + u[k+1..])[1..] == u[k+1..];
  }

  lemma AllHexNoDash(s: string)
    requires AllHex(s)
    ensures '-' !in s
  {
  }

  /** For a well-formed UUID the token is its 32 hex digits, in order. */
  lemma UuidTokenShape(u: string)
    requires IsUuid(u)
    ensures UuidToken(u) == u[..8] + u[9..13] + u[14..18] + u[19..23] + u[24..]
    ensures |UuidToken(u)| == 32
    ensures AllHex(UuidToken(u))
  {
    var v1, v2, v3, v4 := u[9..], u[14..], u[19..], u[24..];
    AllHexNoDash(u[..8]);
    StripDashesAt(u, 8);
    assert v1[..4] == u[9..13] && v1[5..] == v2;
    AllHexNoDash(u[9..13]);
    StripDashesAt(v1, 4);
    assert v2[..4] == u[14..18] && v2[5..] == v3;
    AllHexNoDash(u[14..18]);
    StripDashesAt(v2, 4);
    assert v3[..4] == u[19..23] && v3[5..] == v4;
    AllHexNoDash(u[19..23]);
    StripDashesAt(v3, 4);
    AllHexNoDash(v4);
    StripDashesNoDash(v4);
    var r := u[..8] + u[9..13] + u[14..18] + u[19..23] + u[24..];
    assert UuidToken(u) == r;
    forall i | 0 <= i < |r|
      ensures IsHexDigit(r[i])
    {
      if i < 8 { assert r[i] == u[..8][i]; }
      else if i < 12 { assert r[i] == u[9..13][i - 8]; }
      else if i < 16 { assert r[i] == u[14..18][i - 12]; }
      else if i < 20 { assert r[i] == u[19..23][i - 16]; }
      else { assert r[i] == u[24..][i - 20]; }
    }
  }
}

=== FILE: validators.dfy ===
/** Form validators (src/utils/validators.js). Each returns `{ valid, error }`;
    a missing value (`undefined`/`null`) is `None`. */
module Validators {
  import opened Wrappers
  import opened JsText

  const MaxTitleLength: nat := 200
  const ContentWarningLength: nat := 50000
  const MinPasswordLength: nat := 6

  /** The message each failed check reports. */
  datatype ValidationError =
    | TitleRequired
    | TitleTooLong
    | ContentRequired
    | EmailRequired
    | EmailMalformed
    | PasswordRequired
    | PasswordTooShort
    | ExpiryUnparseable
    | ExpiryNotInFuture

  /** The advisory message of `validateHtmlContent`. */
  datatype ValidationWarning = ContentTooLarge

  datatype Verdict = Verdict(valid: bool, error: Option<ValidationError>)

  datatype ContentVerdict = ContentVerdict(valid: bool, error: Option<ValidationError>, warning: Option<ValidationWarning>)

  const Accepted: Verdict := Verdict(true, None)

  function Rejected(e: ValidationError): Verdict {
    Verdict(false, Some(e))
  }

  /** JavaScript's `!value || value.trim().length === 0` on an optional string. */
  predicate MissingOrBlank(s: Option<string>) {
    s.None? || |Trim(s.value)| == 0
  }

  lemma MissingOrBlankMeans(s: Option<string>)
    ensures MissingOrBlank(s) <==> s.None? || IsBlank(s.value)
  {
    if s.Some? {
      TrimEmptyIffBlank(s.value);
    }
  }

  /** `validateTitle`. */
  function ValidateTitle(title: Option<string>): (v: Verdict)
    ensures v.valid <==> v.error.None?
    ensures v.valid <==> title.Some? && !IsBlank(title.value) && |title.value| <= MaxTitleLength
    ensures v.error == Some(TitleRequired) <==> title.None? || IsBlank(title.value)
    ensures title.Some? && !IsBlank(title.value) && |title.value| > MaxTitleLength ==> v.error == Some(TitleTooLong)
  {
    MissingOrBlankMeans(title);
    if MissingOrBlank(title) then Rejected(TitleRequired)
    else if |title.value| > MaxTitleLength then Rejected(TitleTooLong)
    else Accepted
  }

  /** `validateHtmlContent`: blank content is rejected; content longer than
      50000 characters is accepted with a warning. */
  function ValidateHtmlContent(content: Option<string>): (v: ContentVerdict)
    ensures v.valid <==> v.error.None?
    ensures v.valid <==> content.Some? && !IsBlank(content.value)
    ensures !v.valid ==> v.error == Some(ContentRequired) && v.warning.None?
    ensures v.valid ==> (v.warning.Some? <==> |content.value| > ContentWarningLength)
  {
    MissingOrBlankMeans(content);
    if MissingOrBlank(content) then ContentVerdict(false, Some(ContentRequired), None)
    else
      var warning := if |content.value| > ContentWarningLength then Some(ContentTooLarge) else None;
      ContentVerdict(true, None, warning)
  }

  /** One part of an address under `[^\s@]+`: non-empty, no whitespace, no `@`. */
  predicate IsAddressPart(p: string) {
    |p| > 0 && forall k :: 0 <= k < |p| ==> !IsWhitespace(p[k]) && p[k] != '@'
  }

  /** The reading of `/^[^\s@]+@[^\s@]+\.[^\s@]+$/` as a split of `s` into
      `a@b.c`; `b` and `c` may themselves contain dots. */
  ghost predicate SplitsAsAddress(s: string) {
    exists i, j :: 0 < i && i + 1 < j && j + 1 < |s| && s[i] == '@' && s[j] == '.' &&
      IsAddressPart(s[..i]) && IsAddressPart(s[i+1..j]) && IsAddressPart(s[j+1..])
  }

  /** The index of the first occurrence of `c` in `s`, or -1. */
  function IndexOf(s: string, c: char): (k: int)
    ensures -1 <= k < |s|
    ensures k >= 0 ==> s[k] == c && c !in s[..k]
    ensures k == -1 ==> c !in s
  {
    if |s| == 0 then -1
    else if s[0] == c then 0
    else
      var k := IndexOf(s[1..], c);
      if k == -1 then -1 else k + 1
  }

  /** The domain part after `@`: an address part with a dot that is neither its
      first nor its last character. */
  predicate IsDomain(d: string) {
    IsAddressPart(d) && exists j :: 0 < j < |d| - 1 && d[j] == '.'
  }

  /** The executable email pattern check: split at the first `@`. */
  predicate MatchesEmailPattern(s: string) {
    var i := IndexOf(s, '@');
    0 < i && IsAddressPart(s[..i]) && IsDomain(s[i+1..])
  }

  /** A slice of an address part is an address part when it is non-empty. */
  lemma AddressPartSlice(p: string, lo: nat, hi: nat)
    requires IsAddressPart(p) && lo < hi <= |p|
    ensures IsAddressPart(p[lo..hi])
  {
    forall k | 0 <= k < hi - lo
      ensures !IsWhitespace(p[lo..hi][k]) && p[lo..hi][k] != '@'
    {
      assert p[lo..hi][k] == p[lo + k];
    }
  }

  lemma PatternGivesSplit(s: string)
    requires MatchesEmailPattern(s)
    ensures SplitsAsAddress(s)
  {
    var i := IndexOf(s, '@');
    var d := s[i+1..];
    var m :| 0 < m < |d| - 1 && d[m] == '.';
    var j := i + 1 + m;
    assert s[i+1..j] == d[..m];
    assert s[j+1..] == d[m+1..];
    AddressPartSlice(d, 0, m);
    AddressPartSlice(d, m + 1, |d|);
    assert s[j] == '.';
  }

  /** Three address parts joined by `@` and `.` form a domain after the `@`. */
  lemma JoinedDomain(b: string, c: string)
    requires IsAddressPart(b) && IsAddressPart(c)
    ensures IsDomain(b + "." + c)
  {
    var d := b + "." + c;
    forall k | 0 <= k < |d|
      ensures !IsWhitespace(d[k]) && d[k] != '@'
    {
      if k < |b| {
        assert d[k] == b[k];
      } else if k > |b| {
        assert d[k] == c[k - |b| - 1];
      }
    }
    assert d[|b|] == '.';
  }

  /** `IndexOf` finds an occurrence with no earlier one. */
  lemma {:induction false} IndexOfAt(s: string, c: char, i: nat)
    requires i < |s| && s[i] == c && c !in s[..i]
    ensures IndexOf(s, c) == i
  {
    if i > 0 {
      assert s[1..][..i - 1] == s[..i][1..];
      IndexOfAt(s[1..], c, i - 1);
    }
  }

  lemma SplitAtGivesPattern(s: string, i: nat, j: nat)
    requires 0 < i && i + 1 < j && j + 1 < |s| && s[i] == '@' && s[j] == '.'
    requires IsAddressPart(s[..i]) && IsAddressPart(s[i+1..j]) && IsAddressPart(s[j+1..])
    ensures MatchesEmailPattern(s)
  {
    IndexOfAt(s, '@', i);
    assert s[i+1..] == s[i+1..j] + "." + s[j+1..];
    JoinedDomain(s[i+1..j], s[j+1..]);
  }

  lemma SplitGivesPattern(s: string)
    requires SplitsAsAddress(s)
    ensures MatchesEmailPattern(s)
  {
    var i, j :| 0 < i && i + 1 < j && j + 1 < |s| && s[i] == '@' && s[j] == '.' &&
      IsAddressPart(s[..i]) && IsAddressPart(s[i+1..j]) && IsAddressPart(s[j+1..]);
    SplitAtGivesPattern(s, i, j);
  }

  /** The scan agrees with the regular expression read as a split. */
  lemma EmailPatternIffSplit(s: string)
    ensures MatchesEmailPattern(s) <==> SplitsAsAddress(s)
  {
    if MatchesEmailPattern(s) {
      PatternGivesSplit(s);
    }
    if SplitsAsAddress(s) {
      SplitGivesPattern(s);
    }
  }

  /** An address that splits as `a@b.c` is never blank. */
  lemma AddressNotBlank(s: string)
    requires SplitsAsAddress(s)
    ensures !IsBlank(s)
  {
    var i, j :| 0 < i && i + 1 < j && j + 1 < |s| && s[i] == '@' && s[j] == '.' &&
      IsAddressPart(s[..i]) && IsAddressPart(s[i+1..j]) && IsAddressPart(s[j+1..]);
    assert s[0] == s[..i][0];
  }

  lemma EmailFacts(email: Option<string>)
    requires email.Some?
    ensures MatchesEmailPattern(email.value) <==> SplitsAsAddress(email.value)
    ensures SplitsAsAddress(email.value) ==> !IsBlank(email.value)
  {
    EmailPatternIffSplit(email.value);
    if SplitsAsAddress(email.value) {
      AddressNotBlank(email.value);
    }
  }

  /** `validateEmail`: required, then matched against the address pattern. */
  function ValidateEmail(email: Option<string>): (v: Verdict)
    ensures v.valid <==> v.error.None?
    ensures v.valid <==> email.Some? && SplitsAsAddress(email.value)
    ensures v.error == Some(EmailRequired) <==> email.None? || IsBlank(email.value)
    ensures email.Some? && !IsBlank(email.value) && !SplitsAsAddress(email.value) ==> v.error == Some(EmailMalformed)
  {
    MissingOrBlankMeans(email);
    if MissingOrBlank(email) then Rejected(EmailRequired)
    else
      EmailFacts(email);
      if !MatchesEmailPattern(email.value) then Rejected(EmailMalformed)
      else Accepted
  }

  /** `validatePassword`: present, and at least six characters. */
  function ValidatePassword(password: Option<string>): (v: Verdict)
    ensures v.valid <==> v.error.None?
    ensures v.valid <==> password.Some? && |password.value| >= MinPasswordLength
    ensures v.error == Some(PasswordRequired) <==> password.None? || password.value == ""
    ensures password.Some? && 0 < |password.value| < MinPasswordLength ==> v.error == Some(PasswordTooShort)
  {
    if password.None? || |password.value| == 0 then Rejected(PasswordRequired)
    else if |password.value| < MinPasswordLength then Rejected(PasswordTooShort)
    else Accepted
  }

  /** The expiry field as the validator sees it: absent (including the empty
      string), or given and parsed by `new Date(...)`, which may fail. */
  datatype ExpiryInput = NoExpiry | ExpiryText(parsed: Option<int>)

  /** `validateExpiresAt` against the current time `now`, in milliseconds. */
  function ValidateExpiresAt(expiresAt: ExpiryInput, now: int): (v: Verdict)
    ensures v.valid <==> v.error.None?
    ensures expiresAt.NoExpiry? ==> v.valid
    ensures expiresAt.ExpiryText? && expiresAt.parsed.None? ==> v.error == Some(ExpiryUnparseable)
    ensures expiresAt.ExpiryText? && expiresAt.parsed.Some? ==> (v.valid <==> expiresAt.parsed.value > now)
    ensures expiresAt.ExpiryText? && expiresAt.parsed.Some? && expiresAt.parsed.value <= now ==> v.error == Some(ExpiryNotInFuture)
  {
    match expiresAt
    case NoExpiry => Accepted
    case ExpiryText(None) => Rejected(ExpiryUnparseable)
    case ExpiryText(Some(date)) =>
      if date <= now then Rejected(ExpiryNotInFuture) else Accepted
  }
}

=== FILE: wrappers.dfy ===
/** The two wrappers used throughout the model: `Option` for the source's
    nullable values and `Result` for actions that either return data or
    report an error. */
module Wrappers {

  /** A nullable value: `None` plays the role of JavaScript's `null`/`undefined`. */
  datatype Option<+T> = None | Some(value: T) {

    /** The value, or `default` when there is none (JavaScript's `??`). */
    function GetOr(default: T): T {
      match this
      case Some(v) => v
      case None => default
    }
  }

  /** The outcome of an action that can fail. */
  datatype Result<+T, +E> = Ok(value: T) | Err(error: E)
}
